=== FILE: README.md ===
# Pipeline run tracking and billing proxy routes — a Dafny model

This project models the parts of the `integrate-deeplake-next` Next.js application
that make decisions of their own:

- **The run-status route** (`GET /api/nextflow/status`). It builds a point-in-time snapshot
  of a pipeline run from the run's directory `work/<runId>/`: the status record,
  whether the report `public/reports/<runId>.html` exists, and the last ten lines of
  `execution.log`.
- **The VisionX launcher route** (`POST /api/visionx/run`). It does the following, in order:
  - creates the run and report directories;
  - writes the parameters as `key=value` lines;
  - rewrites the parameter file's Windows path into a WSL path;
  - hands a `wsl` command to the shell without waiting for it;
  - writes the initial status record `{"status":"running"}`.
- **The two pipeline pages** (`VisionXEngineRunner`, `MedNISTRunner`). Each has a parameter form,
  a submit handler and a polling effect keyed on `[runId, status]`. The effect polls
  while the run is active and stops on `complete` or `failed`. The VisionX page sends
  one status request as soon as polling starts; the MedNIST page waits for the first tick.
- **The Kill Bill proxy routes** (`accounts`, `subscriptions`, `invoices`). Their query-parameter
  precedence treats an empty string as absent. The subscriptions and invoices POST
  handlers guard `accountId`; the accounts POST handler passes its body on unchecked.
  All of them map outcomes to 201/200/400/500.

The file system is an explicit state: files, directories, and paths on which `fs`
calls fail. It is updated in place by a `Host` class. `path.join` builds Windows
paths, `JSON.parse` is a parameter, and the billing client is an oracle that returns a
value or throws. Each page is a class whose methods follow the component's handlers. A pure state
machine in `RunTracking` models React's render and effect pass: each event handler
is proved equal to one `Step`, the render pass to `Commit`, and mounting to
`Mounted`. The form handlers change only the form data and leave the run state
unchanged. The properties of the run state are proved about that machine.

Modules: `Wrappers`, `Text`, `Json`/`Http`, `Files`, `Layout` (shared foundations);
`NextflowStatus`, `VisionXRun`, `RunTracking`, `Forms`, `VisionXEngineRunner`,
`MedNistRunner`, `KillBill`, `KillBillAccounts`, `KillBillSubscriptions`,
`KillBillInvoices` (one per core file or shared concern); `Scenario` (a run end to end).

## Model

| member | source | states |
|---|---|---|
| NextflowStatus.Get | integrate-deeplake-next/src/app/api/nextflow/status/route.ts:6-63 | The codes are 200/400/404/500. 400 iff the run id is absent or empty, with `{message:'Run ID is required'}`. 404 iff the status file does not exist, with `{message:'Run not found', runId}`. 500 iff reading or parsing the record, or reading the log, fails, with `{message:'Failed to get status', error}`. On 200 every record key is passed through except `runId`/`reportUrl`/`logExcerpt`, which are overridden. `reportUrl` is `/reports/<id>.html` iff the report exists, else null. `logExcerpt` is null without a log, else the excerpt. |
| NextflowStatus.LogExcerpt | integrate-deeplake-next/src/app/api/nextflow/status/route.ts:39-45 | The excerpt is a suffix of the log with at most 9 line breaks. It is the whole log when the log has fewer than 10 newlines, and has exactly 9 line breaks otherwise. Its lines are the last `min(10, n)` lines of the log. |
| NextflowStatus.LastLines | integrate-deeplake-next/src/app/api/nextflow/status/route.ts:44 | `slice(-10)` keeps the last 10 elements, or all of them when there are fewer. |
| NextflowStatus.SnapshotBody | integrate-deeplake-next/src/app/api/nextflow/status/route.ts:48-53 | The keys are those of the spread record plus the three overridden keys. The overridden keys win; every other record key keeps its value. |
| NextflowStatus.StatusRecord | integrate-deeplake-next/src/app/api/nextflow/status/route.ts:31-32 | A failed read propagates its error; otherwise the result is the parse of the file's contents. |
| NextflowStatus.LogField | integrate-deeplake-next/src/app/api/nextflow/status/route.ts:38-45 | Null without a log file. With one, it succeeds iff the read does, and then gives the excerpt; a failed read gives the read's own message. |
| Text.JoinSplit | integrate-deeplake-next/src/app/api/nextflow/status/route.ts:43-44 | Joining the pieces of a split with the same separator gives back the text. |
| Text.SplitJoin | integrate-deeplake-next/src/app/api/nextflow/status/route.ts:43-44 | Splitting the join of separator-free pieces gives back the pieces. |
| Text.Split | integrate-deeplake-next/src/app/api/nextflow/status/route.ts:43 | `split` gives one more piece than there are separators, and no piece holds a separator. |
| Json.Spread | integrate-deeplake-next/src/app/api/nextflow/status/route.ts:49 | An object spreads its fields; null, booleans and numbers spread nothing; arrays and strings spread their indexed elements. |
| Json.Field | integrate-deeplake-next/src/app/api/killbill/subscriptions/route.ts:12 | A destructured property is defined iff the body is an object holding the key, and then it is that key's value. |
| Files.ReadFile | integrate-deeplake-next/src/app/api/nextflow/status/route.ts:32 | `readFileSync` succeeds iff the path is a file, not a directory and not faulty. It yields the contents. A missing path gives ENOENT naming the path, a faulty one its fault, and a directory `EISDIR: illegal operation on a directory, read`. |
| Files.MkdirStep | integrate-deeplake-next/src/app/api/visionx/run/route.ts:28-29 | A recursive `mkdir` succeeds iff the path is neither a file nor faulty. It then adds the directory; on failure nothing changes. Well-formedness is preserved. |
| Files.WriteStep | integrate-deeplake-next/src/app/api/visionx/run/route.ts:41 | `writeFile` succeeds iff the parent is a directory and the path is neither a directory nor faulty. It then sets the file; on failure nothing changes. |
| Files.Host.Mkdir | integrate-deeplake-next/src/app/api/visionx/run/route.ts:28 | Updates the host in place exactly as `MkdirStep`; launches nothing. |
| Files.Host.WriteFile | integrate-deeplake-next/src/app/api/visionx/run/route.ts:63 | Updates the host in place exactly as `WriteStep`; launches nothing. |
| Files.Host.Exec | integrate-deeplake-next/src/app/api/visionx/run/route.ts:52 | Appends the command to the launched commands and leaves the files unchanged. |
| VisionXRun.SerializeParams | integrate-deeplake-next/src/app/api/visionx/run/route.ts:33-38 | The loop produces `key=value\n` for each entry, concatenated in entry order (`Serialized`); no entries give `""`. |
| VisionXRun.SerializedLineCount | integrate-deeplake-next/src/app/api/visionx/run/route.ts:36-38 | When no key or value holds a line break, the file has exactly one line break per entry. |
| VisionXRun.ParamsRoundTrip | integrate-deeplake-next/src/app/api/visionx/run/route.ts:36-38 | Keys without `=` or newline and values without newline are recovered in order by splitting each line at its first `=`. |
| VisionXRun.WslPath | integrate-deeplake-next/src/app/api/visionx/run/route.ts:44 | The result has no backslash and no upper-case letter. A leading `X:` becomes `/mnt/x` followed by the slashed, lower-cased rest. Without a drive, the path is only slashed and lower-cased. |
| VisionXRun.WslPathIdempotent | integrate-deeplake-next/src/app/api/visionx/run/route.ts:44 | Rewriting an already rewritten path changes nothing. |
| VisionXRun.CommandArgsRoundTrip | integrate-deeplake-next/src/app/api/visionx/run/route.ts:47 | The command is `wsl /home/darfito/run-visionx.sh "<runId>" "<path>"`; its two quoted arguments read back as the run id and the path. |
| VisionXRun.Launch | integrate-deeplake-next/src/app/api/visionx/run/route.ts:16-77 | The codes are 200 or 500. 200 iff the body has params, both directories can be created, and both files can be written; the new state is then exactly the two directories plus `params.txt` and `status.json = {"status":"running"}`, with body `{runId, message:'VisionX pipeline started in WSL'}`. Every 500 is `{message:'Failed to start pipeline', error}`. The command is launched iff the parameter file was written, even when the status write then fails. Other files are untouched and well-formedness is preserved. |
| VisionXRun.LaunchFailsAtFirstThrowingStep | integrate-deeplake-next/src/app/api/visionx/run/route.ts:26-77 | Each 500 is pinned to the first step that throws, with that step's own message and the state the earlier steps left. A faulty or file-occupied run directory gives its fault or `EEXIST` with nothing changed. The same for the reports directory keeps the run directory. A body without `params` keeps both directories. An unwritable `params.txt` gives its fault or `EISDIR` with both directories. An unwritable `status.json` gives its fault or `EISDIR` after `params.txt` holds the serialised entries and the command was launched. |
| VisionXRun.Post | integrate-deeplake-next/src/app/api/visionx/run/route.ts:16-77 | The imperative handler on the host gives the response, file system and launched commands of `Launch`. |
| VisionXRun.RecordLaunchError | integrate-deeplake-next/src/app/api/visionx/run/route.ts:52-59 | The failure callback only writes `wsl_error.log` in the run directory, launches nothing, and leaves every other file unchanged. |
| RunTracking.Step | integrate-deeplake-next/src/app/test-visionx-engine/components/VisionXEngineRunner.tsx:88-159 | The invariant "polling iff runId is set and status is running or empty" survives every event. Submit start clears the error and sets loading. Settling clears loading. Only an accepted submit changes the run id, setting status `running`. A rejection sets the server message or the default. A poll reply sets the status, replaces the excerpt only with a non-empty one, and stops polling on complete/failed. A failed poll changes nothing else. The excerpt changes only on a poll reply with a non-empty excerpt, and poll replies and ticks leave loading and the error alone. Without an immediate check, only ticks send requests. With one, a submit or poll reply that changes `[runId, status]` into an active poll sends exactly one extra request. |
| RunTracking.Commit | integrate-deeplake-next/src/app/test-visionx-engine/components/VisionXEngineRunner.tsx:148-159 | The effect reruns only when `[runId, status]` changed. It then polls iff the condition holds, and sends one immediate request when configured to. The state cells are untouched. |
| RunTracking.Mounted | integrate-deeplake-next/src/app/test-visionx-engine/components/VisionXEngineRunner.tsx:57-61 | The mounted page has every cell null or false, is not polling, has nothing in flight, and satisfies the invariant. |
| RunTracking.RejectionMessage | integrate-deeplake-next/src/app/test-visionx-engine/components/VisionXEngineRunner.tsx:104-107 | `errorData.message \|\| 'Failed to start pipeline'`: never empty, and the server's message when it is non-empty. |
| RunTracking.TerminalIsFinal | integrate-deeplake-next/src/app/test-visionx-engine/components/VisionXEngineRunner.tsx:140-141 | After a terminal status with no request outstanding, any sequence of events without a new run keeps the status and run id and keeps polling off. |
| RunTracking.LateReplyRevivesPolling | integrate-deeplake-next/src/app/test-visionx-engine/components/VisionXEngineRunner.tsx:123-145 | With two requests in flight, a late `running` reply arriving after `complete` restores `running` and restarts polling. |
| RunTracking.ReportLink | integrate-deeplake-next/src/app/test-visionx-engine/components/VisionXEngineRunner.tsx:365-374 | The report link is shown iff a run id is set and the status is `complete`, and it is the URL the status route derives. |
| RunTracking.ShowsFailureNotice | integrate-deeplake-next/src/app/test-visionx-engine/components/VisionXEngineRunner.tsx:390-394 | The failure notice appears only for a run id with a terminal status, never beside a report link and never while polling. For a run with a terminal status it appears exactly when there is no report link. |
| RunTracking.ShownLog | integrate-deeplake-next/src/app/test-visionx-engine/components/VisionXEngineRunner.tsx:356-363 | The log block is shown iff a run id and a non-empty excerpt are set. |
| Forms.Processed | integrate-deeplake-next/src/app/test-nextflow/components/MedNISTRunner.tsx:44-45 | A number input stores its number, or `''` when its text is empty; any other input stores its text. |
| Forms.Updated | integrate-deeplake-next/src/app/test-nextflow/components/MedNISTRunner.tsx:47-50 | The named field takes the new value and every other field keeps its value. |
| VisionXEngineRunner.ButtonText | integrate-deeplake-next/src/app/test-visionx-engine/components/VisionXEngineRunner.tsx:162-167 | Priority order: loading, then `compare_models`, then `resume_workflow`, then `'Run Models'`, each label iff its condition and no earlier one. |
| VisionXEngineRunner.ShowsModelSelection | integrate-deeplake-next/src/app/test-visionx-engine/components/VisionXEngineRunner.tsx:209-210 | The model selector is shown exactly when the idle button does not offer `'Run Model Comparison'`. While it is shown, no comparison link can appear for any run. |
| VisionXEngineRunner.ComparisonLink | integrate-deeplake-next/src/app/test-visionx-engine/components/VisionXEngineRunner.tsx:376-385 | The comparison link is shown iff the report link is shown and `compare_models` is truthy. |
| VisionXEngineRunner.Runner.constructor | integrate-deeplake-next/src/app/test-visionx-engine/components/VisionXEngineRunner.tsx:44-61 | The default form values, and the mounted run state. |
| VisionXEngineRunner.Runner.Render | integrate-deeplake-next/src/app/test-visionx-engine/components/VisionXEngineRunner.tsx:148-159 | The effect pass in place equals `Commit` with an immediate check. |
| VisionXEngineRunner.Runner.HandleChange | integrate-deeplake-next/src/app/test-visionx-engine/components/VisionXEngineRunner.tsx:64-76 | Only the named field changes, to the processed value; the run state is unchanged. |
| VisionXEngineRunner.Runner.HandleCheckboxChange | integrate-deeplake-next/src/app/test-visionx-engine/components/VisionXEngineRunner.tsx:79-85 | Only the named field changes, to the box's state; the run state is unchanged. |
| VisionXEngineRunner.Runner.BeginSubmit | integrate-deeplake-next/src/app/test-visionx-engine/components/VisionXEngineRunner.tsx:88-91 | The new state is one `Step` of the submit start. |
| VisionXEngineRunner.Runner.FinishSubmit | integrate-deeplake-next/src/app/test-visionx-engine/components/VisionXEngineRunner.tsx:93-116 | The new state is one `Step` of the submit outcome. |
| VisionXEngineRunner.Runner.IntervalFires | integrate-deeplake-next/src/app/test-visionx-engine/components/VisionXEngineRunner.tsx:152 | A request is sent iff an interval is scheduled; the new state is one `Step` of the tick. |
| VisionXEngineRunner.Runner.StatusReceived | integrate-deeplake-next/src/app/test-visionx-engine/components/VisionXEngineRunner.tsx:127-145 | The new state is one `Step` of the poll reply. |
| MedNistRunner.ButtonText | integrate-deeplake-next/src/app/test-nextflow/components/MedNISTRunner.tsx:257 | `'Starting Training...'` iff loading, `'Train Model'` otherwise. |
| MedNistRunner.NoRequestBeforeTick | integrate-deeplake-next/src/app/test-nextflow/components/MedNISTRunner.tsx:89-112 | Without an immediate check, no sequence of events other than interval ticks increases the number of requests in flight. |
| MedNistRunner.Runner.constructor | integrate-deeplake-next/src/app/test-nextflow/components/MedNISTRunner.tsx:20-35 | The default form values, and the mounted run state. |
| MedNistRunner.Runner.Render | integrate-deeplake-next/src/app/test-nextflow/components/MedNISTRunner.tsx:86-117 | The effect pass in place equals `Commit` without an immediate check. |
| MedNistRunner.Runner.HandleChange | integrate-deeplake-next/src/app/test-nextflow/components/MedNISTRunner.tsx:38-51 | Only the named field changes, to the processed value; the run state is unchanged. |
| MedNistRunner.Runner.BeginSubmit | integrate-deeplake-next/src/app/test-nextflow/components/MedNISTRunner.tsx:54-57 | The new state is one `Step` of the submit start. |
| MedNistRunner.Runner.FinishSubmit | integrate-deeplake-next/src/app/test-nextflow/components/MedNISTRunner.tsx:59-82 | The new state is one `Step` of the submit outcome. |
| MedNistRunner.Runner.IntervalFires | integrate-deeplake-next/src/app/test-nextflow/components/MedNISTRunner.tsx:90-92 | A request is sent iff an interval is scheduled; the new state is one `Step` of the tick. |
| MedNistRunner.Runner.StatusReceived | integrate-deeplake-next/src/app/test-nextflow/components/MedNISTRunner.tsx:92-110 | The new state is one `Step` of the poll reply. |
| KillBill.InternalError | integrate-deeplake-next/src/app/api/killbill/accounts/route.ts:15-24 | 500 with exactly `error:'Internal server error'` and `message`: the error's message, or `'Unknown error'` for a non-Error. |
| KillBill.Answer | integrate-deeplake-next/src/app/api/killbill/accounts/route.ts:13-14 | Exactly one call is made. The response has the given code and the returned value, or is the 500 response iff the call throws. |
| KillBill.Lookup | integrate-deeplake-next/src/app/api/killbill/accounts/route.ts:33-44 | A non-empty first parameter wins whatever the second holds; otherwise a non-empty second is used; with neither, 400 and no call. |
| KillBillAccounts.Post | integrate-deeplake-next/src/app/api/killbill/accounts/route.ts:10-25 | The body goes unchecked to `createAccount`, giving 201 with the created account or 500 on a throw. An unreadable body gives 500 with no call. |
| KillBillAccounts.Get | integrate-deeplake-next/src/app/api/killbill/accounts/route.ts:27-55 | A non-empty `accountId` calls only `getAccount`, even with `email` given. Otherwise a non-empty `email` calls only `searchAccountByEmail`. 400 `{error:'Account ID or email is required'}` with no call iff neither is given. 500 iff the call throws. |
| KillBillSubscriptions.CreateSubscriptionCall | integrate-deeplake-next/src/app/lib/killbill.ts:195-218 | A missing or null `subscriptionData` throws a `TypeError` reading `planName` before any request; otherwise the call is made. |
| KillBillSubscriptions.Post | integrate-deeplake-next/src/app/api/killbill/subscriptions/route.ts:10-33 | 400 `{error:'Account ID is required'}` with no call iff the body is a non-null value whose `accountId` is falsy. A null body gives 500 with no call. A truthy `accountId` with missing or null `subscriptionData` also gives 500 with no call, carrying the `TypeError` of reading `planName` of `undefined` or `null`. Otherwise exactly one `createSubscription` call is made, giving 201 with its value or 500 on a throw. |
| KillBillSubscriptions.Get | integrate-deeplake-next/src/app/api/killbill/subscriptions/route.ts:35-63 | `subscriptionId` wins over `accountId`; with neither, 400 `{error:'Subscription ID or Account ID is required'}` and no call. 500 iff the call throws. |
| KillBillInvoices.Post | integrate-deeplake-next/src/app/api/killbill/invoices/route.ts:10-33 | 400 `{error:'Account ID is required'}` with no call iff `accountId` is falsy in a non-null body. A call is made iff `accountId` is truthy, giving 201 with the invoice or 500 on a throw. |
| KillBillInvoices.Get | integrate-deeplake-next/src/app/api/killbill/invoices/route.ts:35-63 | `invoiceId` wins over `accountId`, calling only `getInvoice`; with neither, 400 `{error:'Invoice ID or Account ID is required'}` and no call. 500 iff the call throws. |
| Scenario.LayoutDistinct | integrate-deeplake-next/src/app/api/nextflow/status/route.ts:19-35 | The run's status, parameter, log and report paths differ from each other and from the directories the launcher creates. |
| Scenario.StatusOnlyRecordReported | integrate-deeplake-next/src/app/api/nextflow/status/route.ts:34-53 | A readable record `{status}` with no log gives 200 with that status, the run id, `logExcerpt:null`, and the report URL exactly when the report exists (else null). |
| Scenario.LaunchedRunIsRunning | integrate-deeplake-next/src/app/api/visionx/run/route.ts:61-69 | Right after a successful launch, the status route answers 200 `{status:'running', runId, reportUrl:null, logExcerpt:null}`. |
| Scenario.FinishedRunIsComplete | integrate-deeplake-next/src/app/api/nextflow/status/route.ts:34-53 | Once the record says complete and the report is published, the route answers 200 with status `complete` and `reportUrl` `/reports/<id>.html`. |
| Scenario.Reading | integrate-deeplake-next/src/app/test-nextflow/components/MedNISTRunner.tsx:94-103 | A non-2xx response is a failed poll; otherwise the reply carries the body's string `status` and `logExcerpt`. |
| Scenario.PageFollowsCompletion | integrate-deeplake-next/src/app/test-nextflow/components/MedNISTRunner.tsx:98-107 | A polling page that receives the completed snapshot shows `complete`, stops polling, keeps its excerpt, and links to the route's `reportUrl`. |

## Left out

- `path.join` normalisation (`..`, repeated separators, a trailing separator in `process.cwd()`) is not modelled: a path is the parts joined with `\`, the separator on Windows, where the launcher runs `wsl`.
- `mkdir` with `recursive: true` also creates missing parents; the model only creates the named directory and fails only on a file or a faulty path.
- `uuidv4()` is a parameter: the uniqueness of run ids is not modelled.
- `exec` only records the command: the process, its exit status and its output are not modelled. What the script later writes is one explicit update in `Scenario`.
- The launcher writes `status.json` after starting the script, so it can overwrite an early update by the script. A status file can also be read while half written. Both are concurrency effects and are not modelled.
- VisionXRun.RecordLaunchError: the outcome of the synchronous write is not modelled. A throw there would be an uncaught exception in the callback.
- Timers are discrete `IntervalFired` events; the 5000 ms period and timer drift are not modelled.
- RunTracking.Step: React renders and re-runs the effect after every event. Two events batched into one render are not modelled. Replies are not tied to the effect instance that sent them, so a stale reply from a previous run id's closure is treated like any other.
- `/api/visionx/status`, which the VisionX page polls, is not part of this model; its replies are the abstract `PollReply`. `/api/nextflow/run`, which the MedNIST page posts to, is not part of this model either; its outcome is the abstract `SubmitReply`.
- Scenario.Reading: a `status` that is not a string is read as absent; the page would store the raw value.
- Floating-point form values are exact reals, and `Number(value)` is an input to the change event. For a number input whose text is non-empty it is never NaN.
- JSON numbers are integers, and object key order is not modelled (objects are maps). `JSON.parse` is a parameter of the status route.
- Values in the parameter file are already text: JavaScript's value-to-string conversion is not modelled. The keys are not integer-like, so entry order is insertion order.
- Lower-casing is ASCII only; Unicode case mapping is not modelled.
- The wording of the `TypeError`s thrown by destructuring a null body and by reading `planName` of `undefined`/`null` follows V8. Other engines word them differently.
- `integrate-deeplake-next/src/app/lib/killbill.ts` is not part of this model beyond its line 203 dereference in `createSubscription`. The billing calls are an oracle that returns a value or throws.
- Console logging, response headers and the page markup beyond the displayed conditions are not modelled.

=== FILE: files.dfy ===
/**
 * The part of Node's `fs` and `path` modules the routes use, over an explicit
 * file-system state: a map from path to file contents, a set of directories, and
 * the paths on which any operation fails with a given message (permissions, I/O
 * errors).  Paths are built the way `path.join` builds them on Windows.
 */
module Files {
  import opened Wrappers

  /** The separator `path.join` uses on Windows, where the launcher runs `wsl`. */
  const Separator: char := '\\'

  /** `path.join(dir, name)` for a name without separators or `..` components. */
  function PathJoin(dir: string, name: string): string
  {
    dir + [Separator] + name
  }

  /** A file-system state. */
  datatype Snapshot = Snapshot(files: map<string, string>, dirs: set<string>, faults: map<string, string>)

  /** No path is both a file and a directory. */
  predicate WellFormed(fs: Snapshot)
  {
    fs.files.Keys !! fs.dirs
  }

  /** `fs.existsSync(p)`. */
  predicate Exists(fs: Snapshot, p: string)
  {
    p in fs.files || p in fs.dirs
  }

  /** What an `fs` call that may throw produced: nothing, or the message it threw. */
  datatype IoResult = Done | Threw(message: string)

  /** An `fs` call's result together with the state it leaves. */
  datatype FsStep = FsStep(outcome: IoResult, fs: Snapshot)

  function NoEntry(p: string): string { "ENOENT: no such file or directory, open '" + p + "'" }
  function IsDirectory(p: string): string { "EISDIR: illegal operation on a directory, open '" + p + "'" }
  function AlreadyExists(p: string): string { "EEXIST: file already exists, mkdir '" + p + "'" }
  /** Reading a directory opens it and fails at the read itself, so no path is named. */
  const IsDirectoryRead := "EISDIR: illegal operation on a directory, read"

  /** `fs.readFileSync(p, 'utf8')`: the contents of a readable file, or the message it throws. */
  function ReadFile(fs: Snapshot, p: string): (r: Result<string, string>)
    ensures r.Ok? <==> p in fs.files && p !in fs.dirs && p !in fs.faults
    ensures r.Ok? ==> r.value == fs.files[p]
    ensures !Exists(fs, p) ==> r == Err(NoEntry(p))
    ensures Exists(fs, p) && p in fs.faults ==> r == Err(fs.faults[p])
    ensures Exists(fs, p) && p !in fs.faults && p in fs.dirs ==> r == Err(IsDirectoryRead)
  {
    if !Exists(fs, p) then Err(NoEntry(p))
    else if p in fs.faults then Err(fs.faults[p])
    else if p in fs.dirs then Err(IsDirectoryRead)
    else Ok(fs.files[p])
  }

  /**
   * `mkdir(p, { recursive: true })`: succeeds when `p` is or becomes a directory, and
   * fails, changing nothing, when `p` is a file or faulty.
   */
  function MkdirStep(fs: Snapshot, p: string): (r: FsStep)
    ensures r.outcome.Done? <==> p !in fs.faults && p !in fs.files
    ensures r.outcome.Done? ==> r.fs == fs.(dirs := fs.dirs + {p})
    ensures r.outcome.Threw? ==> r.fs == fs
    ensures WellFormed(fs) ==> WellFormed(r.fs)
  {
    if p in fs.faults then FsStep(Threw(fs.faults[p]), fs)
    else if p in fs.files then FsStep(Threw(AlreadyExists(p)), fs)
    else FsStep(Done, fs.(dirs := fs.dirs + {p}))
  }

  /**
   * `writeFile(path.join(dir, name), content)`: replaces or creates the file when
   * `dir` is a directory and the path is neither a directory nor faulty; otherwise
   * it fails and changes nothing.
   */
  function WriteStep(fs: Snapshot, dir: string, name: string, content: string): (r: FsStep)
    ensures var p := PathJoin(dir, name);
            r.outcome.Done? <==> p !in fs.faults && dir in fs.dirs && p !in fs.dirs
    ensures r.outcome.Done? ==> r.fs == fs.(files := fs.files[PathJoin(dir, name) := content])
    ensures r.outcome.Threw? ==> r.fs == fs
    ensures WellFormed(fs) ==> WellFormed(r.fs)
  {
    var p := PathJoin(dir, name);
    if p in fs.faults then FsStep(Threw(fs.faults[p]), fs)
    else if dir !in fs.dirs then FsStep(Threw(NoEntry(p)), fs)
    else if p in fs.dirs then FsStep(Threw(IsDirectory(p)), fs)
    else FsStep(Done, fs.(files := fs.files[p := content]))
  }

  /**
   * The machine the web application runs on: its file system, which `fs` calls
   * change in place, and the shell commands handed to `child_process.exec` so far.
   */
  class Host {
    var files: map<string, string>
    var dirs: set<string>
    const faults: map<string, string>
    var launched: seq<string>

    function View(): Snapshot
      reads this
    {
      Snapshot(files, dirs, faults)
    }

    constructor (files: map<string, string>, dirs: set<string>, faults: map<string, string>)
      ensures View() == Snapshot(files, dirs, faults)
      ensures launched == []
    {
      this.files := files;
      this.dirs := dirs;
      this.faults := faults;
      launched := [];
    }

    method Mkdir(p: string) returns (r: IoResult)
      modifies this
      ensures FsStep(r, View()) == MkdirStep(old(View()), p)
      ensures launched == old(launched)
    {
      if p in faults {
        r := Threw(faults[p]);
      } else if p in files {
        r := Threw(AlreadyExists(p));
      } else {
        dirs := dirs + {p};
        r := Done;
      }
    }

    method WriteFile(dir: string, name: string, content: string) returns (r: IoResult)
      modifies this
      ensures FsStep(r, View()) == WriteStep(old(View()), dir, name, content)
      ensures launched == old(launched)
    {
      var p := PathJoin(dir, name);
      if p in faults {
        r := Threw(faults[p]);
      } else if dir !in dirs {
        r := Threw(NoEntry(p));
      } else if p in dirs {
        r := Threw(IsDirectory(p));
      } else {
        files := files[p := content];
        r := Done;
      }
    }

    /** `exec(command, callback)`: the command is started and not waited for. */
    method Exec(command: string)
      modifies this
      ensures launched == old(launched) + [command]
      ensures View() == old(View())
    {
      launched := launched + [command];
    }
  }
}

=== FILE: forms.dfy ===
/**
 * The parameter forms of the two pipeline pages: a record of named fields holding
 * text, numbers or check-box states, updated one field at a time by the change
 * handlers.
 */
module Forms {
  /** A form field's value. Numbers are exact reals (no NaN: see `ChangeInput`). */
  datatype FieldValue = Text(s: string) | Numeric(x: real) | Flag(b: bool)

  /** The form state: field name to value. */
  type Form = map<string, FieldValue>

  /**
   * The change event of a text, select or number input: the input's text and, for a
   * number input, `Number(value)`. A number input's text is empty or a valid number,
   * so that conversion never gives NaN.
   */
  datatype ChangeInput =
    | TextChange(value: string)
    | NumberChange(value: string, number: real)

  /** JavaScript truthiness of a field value. */
  predicate Truthy(v: FieldValue)
  {
    match v
    case Text(s) => s != ""
    case Numeric(x) => x != 0.0
    case Flag(b) => b
  }

  /** `formData[name]` is truthy; a field the form lacks reads as `undefined`. */
  predicate FieldTruthy(form: Form, name: string)
  {
    name in form && Truthy(form[name])
  }

  /**
   * The value `handleChange` stores: a number input's number, except that an empty
   * number input stores the empty string; any other input's text as it is.
   */
  function Processed(input: ChangeInput): (v: FieldValue)
    ensures input.TextChange? ==> v == Text(input.value)
    ensures input.NumberChange? && input.value == "" ==> v == Text("")
    ensures input.NumberChange? && input.value != "" ==> v == Numeric(input.number)
    ensures v.Text? ==> v.s == input.value
  {
    match input
    case TextChange(value) => Text(value)
    case NumberChange(value, number) => if value == "" then Text("") else Numeric(number)
  }

  /** `{ ...form, [name]: v }`: the named field holds `v`; every other field keeps its value. */
  function Updated(form: Form, name: string, v: FieldValue): (r: Form)
    ensures r.Keys == form.Keys + {name}
    ensures r[name] == v
    ensures forall k :: k in form && k != name ==> r[k] == form[k]
  {
    form[name := v]
  }
}

=== FILE: json.dfy ===
/**
 * JSON values as the routes see them after `JSON.parse` / `request.json()`, the
 * JavaScript truthiness test the handlers use (`if (!runId)`, `if (accountId)`),
 * and what an object spread `{ ...v }` copies out of a value.
 */
module Json {
  import opened Wrappers

  /** A JSON value. Numbers are kept as integers; objects as maps from key to value. */
  datatype Value =
    | Null
    | Bool(b: bool)
    | Num(n: int)
    | Str(s: string)
    | Arr(items: seq<Value>)
    | Obj(fields: map<string, Value>)

  /** JavaScript truthiness of a JSON value (NaN does not arise: numbers are integers here). */
  predicate Truthy(v: Value)
  {
    match v
    case Null => false
    case Bool(b) => b
    case Num(n) => n != 0
    case Str(s) => s != ""
    case Arr(_) => true
    case Obj(_) => true
  }

  /**
   * JavaScript truthiness of a value that may be `undefined` (a missing property),
   * which is `None` here.
   */
  predicate Given(v: Option<Value>)
  {
    v.Some? && Truthy(v.value)
  }

  /**
   * JavaScript truthiness of `URLSearchParams.get(name)`, which is `null` when the
   * parameter is absent and a string otherwise: the empty string counts as absent.
   */
  predicate Present(q: Option<string>)
  {
    q.Some? && q.value != ""
  }

  /** A one-field object `{ key: Str(text) }`. */
  function Message(key: string, text: string): (v: Value)
    ensures v.Obj? && v.fields.Keys == {key} && v.fields[key] == Str(text)
  {
    Obj(map[key := Str(text)])
  }

  /** `obj.key` for a destructured request body: `undefined` unless `v` is an object holding `key`. */
  function Field(v: Value, key: string): (r: Option<Value>)
    ensures r.Some? <==> v.Obj? && key in v.fields
    ensures r.Some? ==> r.value == v.fields[key]
  {
    if v.Obj? && key in v.fields then Some(v.fields[key]) else None
  }

  /** The decimal digit for `d`. */
  function Digit(d: nat): (c: char)
    requires d < 10
    ensures '0' <= c <= '9'
  {
    ('0' as int + d) as char
  }

  /** `String(n)` for a natural number: its decimal numeral. */
  function Numeral(n: nat): (s: string)
    ensures |s| >= 1
    ensures n >= 10 ==> |s| >= 2
    ensures s[|s| - 1] == Digit(n % 10)
  {
    if n < 10 then [Digit(n)] else Numeral(n / 10) + [Digit(n % 10)]
  }

  /** Distinct numbers have distinct numerals, so array indices give distinct keys. */
  lemma {:induction false} NumeralInjective(a: nat, b: nat)
    requires Numeral(a) == Numeral(b)
    ensures a == b
  {
    assert Digit(a % 10) == Digit(b % 10);
    if a >= 10 && b >= 10 {
      var sa, sb := Numeral(a), Numeral(b);
      assert sa[..|sa| - 1] == Numeral(a / 10);
      assert sb[..|sb| - 1] == Numeral(b / 10);
      NumeralInjective(a / 10, b / 10);
    }
  }

  lemma NumeralsInjective()
    ensures forall a: nat, b: nat :: Numeral(a) == Numeral(b) ==> a == b
  {
    forall a: nat, b: nat | Numeral(a) == Numeral(b)
      ensures a == b
    {
      NumeralInjective(a, b);
    }
  }

  /** The own enumerable properties of an array-like value: index numeral to element. */
  function Indexed(items: seq<Value>): (m: map<string, Value>)
    ensures forall i :: 0 <= i < |items| ==> Numeral(i) in m && m[Numeral(i)] == items[i]
    ensures forall k :: k in m ==> exists i :: 0 <= i < |items| && k == Numeral(i)
  {
    NumeralsInjective();
    map i | 0 <= i < |items| :: Numeral(i) := items[i]
  }

  /**
   * The properties `{ ...v }` copies out of `v`: an object's own fields, the indexed
   * elements of an array or the characters of a string, and nothing from `null`, a
   * boolean or a number.
   */
  function Spread(v: Value): (m: map<string, Value>)
    ensures v.Obj? ==> m == v.fields
    ensures v.Null? || v.Bool? || v.Num? ==> m == map[]
    ensures v.Arr? ==> forall i :: 0 <= i < |v.items| ==> Numeral(i) in m && m[Numeral(i)] == v.items[i]
    ensures v.Arr? ==> forall k :: k in m ==> exists i :: 0 <= i < |v.items| && k == Numeral(i)
    ensures v.Str? ==> forall i :: 0 <= i < |v.s| ==> Numeral(i) in m && m[Numeral(i)] == Str([v.s[i]])
    ensures v.Str? ==> forall k :: k in m ==> exists i :: 0 <= i < |v.s| && k == Numeral(i)
  {
    match v
    case Obj(fields) => fields
    case Arr(items) => Indexed(items)
    case Str(s) => Indexed(seq(|s|, i requires 0 <= i < |s| => Str([s[i]])))
    case _ => map[]
  }
}

/** The HTTP responses the route handlers build with `NextResponse.json(body, { status })`. */
module Http {
  import opened Json

  /** A JSON response: the status code (200 when the handler gives none) and the body. */
  datatype Response = Response(code: int, body: Value)
}

=== FILE: killbill.dfy ===
/**
 * What the Kill Bill proxy routes share: the calls they make into the billing
 * client, which either return a value or throw, the 500 response every handler
 * builds from whatever was thrown, and the query-parameter dispatch of the `GET`
 * handlers.
 */
module KillBill {
  import opened Wrappers
  import opened Json
  import opened Http

  /** A thrown value: an `Error` with its message, or anything else. */
  datatype Thrown = ErrorValue(message: string) | OtherValue

  /** How a billing-client call ended. */
  datatype Reply = Returned(value: Value) | Threw(thrown: Thrown)

  /** The billing-client calls the routes make, with their arguments. */
  datatype Call =
    | CreateAccount(Value)
    | GetAccount(string)
    | SearchAccountByEmail(string)
    | CreateSubscription(Value, Value)   // account id, subscription data
    | GetSubscription(string)
    | GetSubscriptionsByAccount(string)
    | CreateInvoice(Value)
    | GetInvoice(string)
    | GetInvoicesByAccount(string)

  /** The billing service as the routes see it: each call returns or throws. */
  type Backend = Call -> Reply

  /** A handler's response together with the billing calls it made, in order. */
  datatype Handled = Handled(response: Response, calls: seq<Call>)

  /** `await request.json()`: the parsed body, or what parsing threw. */
  datatype RequestBody = Unreadable(thrown: Thrown) | Parsed(body: Value)

  /** The message of the `TypeError` thrown by destructuring `property` out of a `null` body. */
  function DestructureNull(property: string): string
  {
    "Cannot destructure property '" + property + "' of '(intermediate value)' as it is null."
  }

  /** The message of the `TypeError` thrown by reading `property` of `undefined` or `null`. */
  function ReadOfNothing(holder: string, property: string): string
  {
    "Cannot read properties of " + holder + " (reading '" + property + "')"
  }

  /** The catch block: 500 with `error: 'Internal server error'` and the error's message, or `'Unknown error'`. */
  function InternalError(t: Thrown): (r: Response)
    ensures r.code == 500 && r.body.Obj? && r.body.fields.Keys == {"error", "message"}
    ensures r.body.fields["error"] == Str("Internal server error")
    ensures t.ErrorValue? ==> r.body.fields["message"] == Str(t.message)
    ensures t.OtherValue? ==> r.body.fields["message"] == Str("Unknown error")
  {
    var message := match t
      case ErrorValue(m) => m
      case OtherValue => "Unknown error";
    Response(500, Obj(map["error" := Str("Internal server error"), "message" := Str(message)]))
  }

  /** The 400 response of a missing identifier. */
  function Required(text: string): (r: Response)
    ensures r.code == 400 && r.body == Message("error", text)
  {
    Response(400, Message("error", text))
  }

  /**
   * Making one billing call and answering with its value under `code`, or with the
   * 500 response when it throws.
   */
  function Answer(call: Call, code: int, backend: Backend): (h: Handled)
    requires code != 500
    ensures h.calls == [call]
    ensures h.response.code == 500 <==> backend(call).Threw?
    ensures backend(call).Returned? ==> h.response == Response(code, backend(call).value)
    ensures backend(call).Threw? ==> h.response == InternalError(backend(call).thrown)
  {
    match backend(call)
    case Returned(v) => Handled(Response(code, v), [call])
    case Threw(t) => Handled(InternalError(t), [call])
  }

  /**
   * The `GET` handlers' dispatch: a non-empty first parameter selects the first
   * lookup whatever the second holds; otherwise a non-empty second parameter
   * selects the second; with neither, 400 and no call.
   */
  function Lookup(first: Option<string>, byFirst: string -> Call,
                  second: Option<string>, bySecond: string -> Call,
                  missing: string, backend: Backend): (h: Handled)
    ensures |h.calls| <= 1
    ensures h.calls == [] <==> !Present(first) && !Present(second)
    ensures Present(first) ==> h == Answer(byFirst(first.value), 200, backend)
    ensures !Present(first) && Present(second) ==> h == Answer(bySecond(second.value), 200, backend)
    ensures h.calls == [] ==> h.response == Required(missing)
    ensures h.response.code in {200, 400, 500}
  {
    if Present(first) then Answer(byFirst(first.value), 200, backend)
    else if Present(second) then Answer(bySecond(second.value), 200, backend)
    else Handled(Required(missing), [])
  }
}

=== FILE: killbill_accounts.dfy ===
/** `/api/killbill/accounts`: create an account, or look one up by id or by email. */
module KillBillAccounts {
  import opened Wrappers
  import opened Json
  import opened Http
  import opened KillBill

  /** `POST`: the parsed body goes to `createAccount` unchecked; 201 with the created account. */
  function Post(body: RequestBody, backend: Backend): (h: Handled)
    ensures h.response.code in {201, 500}
    ensures body.Unreadable? ==> h == Handled(InternalError(body.thrown), [])
    ensures body.Parsed? ==> h.calls == [CreateAccount(body.body)]
    ensures body.Parsed? && backend(CreateAccount(body.body)).Returned? ==>
              h.response == Response(201, backend(CreateAccount(body.body)).value)
    ensures body.Parsed? && backend(CreateAccount(body.body)).Threw? ==>
              h.response == InternalError(backend(CreateAccount(body.body)).thrown)
  {
    match body
    case Unreadable(t) => Handled(InternalError(t), [])
    case Parsed(data) => Answer(CreateAccount(data), 201, backend)
  }

  /** `GET ?accountId=…&email=…`: the id wins over the email; with neither, 400 and no call. */
  function Get(accountId: Option<string>, email: Option<string>, backend: Backend): (h: Handled)
    ensures h.response.code in {200, 400, 500}
    ensures Present(accountId) ==> h.calls == [GetAccount(accountId.value)]
    ensures !Present(accountId) && Present(email) ==> h.calls == [SearchAccountByEmail(email.value)]
    ensures h.response.code == 400 <==> !Present(accountId) && !Present(email)
    ensures h.response.code == 400 ==>
              h.calls == [] && h.response.body == Message("error", "Account ID or email is required")
    ensures h.response.code == 500 <==> h.calls != [] && backend(h.calls[0]).Threw?
    ensures h.response.code == 500 ==> h.response == InternalError(backend(h.calls[0]).thrown)
    ensures h.response.code == 200 ==> h.calls != [] && h.response.body == backend(h.calls[0]).value
  {
    Lookup(accountId, id => GetAccount(id), email, e => SearchAccountByEmail(e),
           "Account ID or email is required", backend)
  }
}

=== FILE: killbill_invoices.dfy ===
/** `/api/killbill/invoices`: create an invoice for an account, or look invoices up by invoice id or by account id. */
module KillBillInvoices {
  import opened Wrappers
  import opened Json
  import opened Http
  import opened KillBill

  /** `POST { accountId }`: a falsy account id gives 400 without a call; otherwise the created invoice with 201. */
  function Post(body: RequestBody, backend: Backend): (h: Handled)
    ensures h.response.code in {201, 400, 500}
    ensures body.Unreadable? ==> h == Handled(InternalError(body.thrown), [])
    ensures body == Parsed(Null) ==> h == Handled(InternalError(ErrorValue(DestructureNull("accountId"))), [])
    ensures h.response.code == 400 <==> body.Parsed? && body.body != Null && !Given(Field(body.body, "accountId"))
    ensures h.response.code == 400 ==> h.calls == [] && h.response.body == Message("error", "Account ID is required")
    ensures h.calls != [] <==> body.Parsed? && Given(Field(body.body, "accountId"))
    ensures h.calls != [] ==> h == Answer(CreateInvoice(body.body.fields["accountId"]), 201, backend)
  {
    match body
    case Unreadable(t) => Handled(InternalError(t), [])
    case Parsed(Null) => Handled(InternalError(ErrorValue(DestructureNull("accountId"))), [])
    case Parsed(v) =>
      var accountId := Field(v, "accountId");
      if !Given(accountId) then Handled(Required("Account ID is required"), [])
      else Answer(CreateInvoice(accountId.value), 201, backend)
  }

  /** `GET ?invoiceId=…&accountId=…`: the invoice id wins; with neither, 400 and no call. */
  function Get(invoiceId: Option<string>, accountId: Option<string>, backend: Backend): (h: Handled)
    ensures h.response.code in {200, 400, 500}
    ensures Present(invoiceId) ==> h.calls == [GetInvoice(invoiceId.value)]
    ensures !Present(invoiceId) && Present(accountId) ==> h.calls == [GetInvoicesByAccount(accountId.value)]
    ensures h.response.code == 400 <==> !Present(invoiceId) && !Present(accountId)
    ensures h.response.code == 400 ==>
              h.calls == [] && h.response.body == Message("error", "Invoice ID or Account ID is required")
    ensures h.response.code == 500 <==> h.calls != [] && backend(h.calls[0]).Threw?
    ensures h.response.code == 500 ==> h.response == InternalError(backend(h.calls[0]).thrown)
    ensures h.response.code == 200 ==> h.calls != [] && h.response.body == backend(h.calls[0]).value
  {
    Lookup(invoiceId, id => GetInvoice(id), accountId, id => GetInvoicesByAccount(id),
           "Invoice ID or Account ID is required", backend)
  }
}

=== FILE: killbill_subscriptions.dfy ===
/**
 * `/api/killbill/subscriptions`: create a subscription for an account, or look
 * subscriptions up by subscription id or by account id.
 */
module KillBillSubscriptions {
  import opened Wrappers
  import opened Json
  import opened Http
  import opened KillBill

  /**
   * `createSubscription(accountId, subscriptionData)` of the billing client: it reads
   * `subscriptionData.planName` before any request, which throws a `TypeError` for a
   * missing or `null` argument; otherwise it makes the call.
   */
  function CreateSubscriptionCall(accountId: Value, data: Option<Value>, backend: Backend): (r: Handled)
    ensures data.None? ==> r == Handled(InternalError(ErrorValue(ReadOfNothing("undefined", "planName"))), [])
    ensures data == Some(Null) ==> r == Handled(InternalError(ErrorValue(ReadOfNothing("null", "planName"))), [])
    ensures data.Some? && data.value != Null ==> r == Answer(CreateSubscription(accountId, data.value), 201, backend)
  {
    match data
    case None => Handled(InternalError(ErrorValue(ReadOfNothing("undefined", "planName"))), [])
    case Some(Null) => Handled(InternalError(ErrorValue(ReadOfNothing("null", "planName"))), [])
    case Some(d) => Answer(CreateSubscription(accountId, d), 201, backend)
  }

  /**
   * `POST { accountId, subscriptionData }`: a falsy account id gives 400 without a
   * call; a missing or `null` `subscriptionData` gives 500, not 400, without a call;
   * otherwise the created subscription with 201.
   */
  function Post(body: RequestBody, backend: Backend): (h: Handled)
    ensures h.response.code in {201, 400, 500}
    ensures body.Unreadable? ==> h == Handled(InternalError(body.thrown), [])
    ensures body == Parsed(Null) ==> h == Handled(InternalError(ErrorValue(DestructureNull("accountId"))), [])
    ensures h.response.code == 400 <==> body.Parsed? && body.body != Null && !Given(Field(body.body, "accountId"))
    ensures h.response.code == 400 ==> h.calls == [] && h.response.body == Message("error", "Account ID is required")
    ensures h.calls != [] ==>
              && body.Parsed? && Given(Field(body.body, "accountId"))
              && Field(body.body, "subscriptionData").Some? && Field(body.body, "subscriptionData").value != Null
              && h.calls == [CreateSubscription(body.body.fields["accountId"], body.body.fields["subscriptionData"])]
    ensures body.Parsed? && Given(Field(body.body, "accountId")) &&
            (Field(body.body, "subscriptionData").None? || Field(body.body, "subscriptionData") == Some(Null)) ==>
              h.response.code == 500 && h.calls == []
    ensures body.Parsed? && Given(Field(body.body, "accountId")) && Field(body.body, "subscriptionData").None? ==>
              h == Handled(InternalError(ErrorValue(ReadOfNothing("undefined", "planName"))), [])
    ensures body.Parsed? && Given(Field(body.body, "accountId")) && Field(body.body, "subscriptionData") == Some(Null) ==>
              h == Handled(InternalError(ErrorValue(ReadOfNothing("null", "planName"))), [])
    ensures body.Parsed? && Given(Field(body.body, "accountId")) &&
            Field(body.body, "subscriptionData").Some? && Field(body.body, "subscriptionData").value != Null ==>
              h == Answer(CreateSubscription(body.body.fields["accountId"], body.body.fields["subscriptionData"]), 201, backend)
    ensures h.response.code == 201 ==>
              h.calls != [] && backend(h.calls[0]).Returned? && h.response.body == backend(h.calls[0]).value
  {
    match body
    case Unreadable(t) => Handled(InternalError(t), [])
    case Parsed(Null) => Handled(InternalError(ErrorValue(DestructureNull("accountId"))), [])
    case Parsed(v) =>
      match Field(v, "accountId")
      case Some(accountId) =>
        if Truthy(accountId) then CreateSubscriptionCall(accountId, Field(v, "subscriptionData"), backend)
        else Handled(Required("Account ID is required"), [])
      case None => Handled(Required("Account ID is required"), [])
  }

  /** `GET ?subscriptionId=…&accountId=…`: the subscription id wins; with neither, 400 and no call. */
  function Get(subscriptionId: Option<string>, accountId: Option<string>, backend: Backend): (h: Handled)
    ensures h.response.code in {200, 400, 500}
    ensures Present(subscriptionId) ==> h.calls == [GetSubscription(subscriptionId.value)]
    ensures !Present(subscriptionId) && Present(accountId) ==> h.calls == [GetSubscriptionsByAccount(accountId.value)]
    ensures h.response.code == 400 <==> !Present(subscriptionId) && !Present(accountId)
    ensures h.response.code == 400 ==>
              h.calls == [] && h.response.body == Message("error", "Subscription ID or Account ID is required")
    ensures h.response.code == 500 <==> h.calls != [] && backend(h.calls[0]).Threw?
    ensures h.response.code == 500 ==> h.response == InternalError(backend(h.calls[0]).thrown)
    ensures h.response.code == 200 ==> h.calls != [] && h.response.body == backend(h.calls[0]).value
  {
    Lookup(subscriptionId, id => GetSubscription(id), accountId, id => GetSubscriptionsByAccount(id),
           "Subscription ID or Account ID is required", backend)
  }
}

=== FILE: layout.dfy ===
/**
 * Where a pipeline run keeps its state: one directory per run under `work/`, and
 * one shared directory of generated reports under `public/reports/`, both below
 * the server's working directory `cwd`.
 */
module Layout {
  import opened Files

  function WorkDir(cwd: string, runId: string): string { PathJoin(PathJoin(cwd, "work"), runId) }
  function ParamsFile(cwd: string, runId: string): string { PathJoin(WorkDir(cwd, runId), "params.txt") }
  function StatusFile(cwd: string, runId: string): string { PathJoin(WorkDir(cwd, runId), "status.json") }
  function LogFile(cwd: string, runId: string): string { PathJoin(WorkDir(cwd, runId), "execution.log") }
  function ErrorLogFile(cwd: string, runId: string): string { PathJoin(WorkDir(cwd, runId), "wsl_error.log") }
  function ReportsDir(cwd: string): string { PathJoin(PathJoin(cwd, "public"), "reports") }
  function ReportFile(cwd: string, runId: string): string { PathJoin(ReportsDir(cwd), runId + ".html") }

  /** The public URL under which the report of a run is served. */
  function ReportUrl(runId: string): string { "/reports/" + runId + ".html" }
}

=== FILE: mednist_runner.dfy ===
/**
 * The MedNIST training page: its parameter form, the submit handler that starts a
 * run, and the polling effect, which only schedules the interval and so sends its
 * first status request one tick after polling starts.
 */
module MedNistRunner {
  import opened Wrappers
  import opened Json
  import opened Forms
  import opened RunTracking

  /** The effect schedules the interval without checking at once. */
  const ImmediateCheck := false

  /** The form's initial values. */
  const Defaults: Form := map[
    "epochs" := Numeric(4.0),
    "batch_size" := Numeric(64.0),
    "learning_rate" := Numeric(0.001),
    "model_type" := Text("simple_cnn"),
    "device" := Text("cpu"),
    "val_frac" := Numeric(0.2),
    "test_frac" := Numeric(0.2),
    "seed" := Numeric(42.0)]

  /** The submit button's label. */
  function ButtonText(isLoading: bool): (t: string)
    ensures t == "Starting Training..." <==> isLoading
    ensures t == "Train Model" <==> !isLoading
  {
    if isLoading then "Starting Training..." else "Train Model"
  }

  /**
   * MedNIST's polling sends no request until the interval fires: from any state,
   * the events other than interval ticks never add a request in flight.
   */
  lemma {:induction false} NoRequestBeforeTick(s: Tracker, events: seq<Event>)
    requires forall i :: 0 <= i < |events| ==> !events[i].IntervalFired?
    ensures Run(s, events, ImmediateCheck).inFlight <= s.inFlight
    decreases |events|
  {
    if events != [] {
      var t := Step(s, events[0], ImmediateCheck);
      assert forall i :: 0 <= i < |events[1..]| ==> events[1..][i] == events[i + 1];
      NoRequestBeforeTick(t, events[1..]);
    }
  }

  /** The component's state cells, with the polling effect's interval and in-flight requests. */
  class Runner {
    var formData: Form
    var runId: Option<string>
    var status: Option<string>
    var logExcerpt: Option<string>
    var isLoading: bool
    var error: Option<string>
    var polling: bool
    var committed: Option<Deps>
    var inFlight: nat

    function State(): Tracker
      reads this
    {
      Tracker(runId, status, logExcerpt, isLoading, error, polling, committed, inFlight)
    }

    /** Mounting: the initial state, then the first render and effect. */
    constructor ()
      ensures State() == Mounted(ImmediateCheck)
      ensures formData == Defaults
    {
      formData := Defaults;
      runId, status, logExcerpt := None, None, None;
      isLoading, error := false, None;
      polling, committed, inFlight := false, None, 0;
      new;
      Render();
    }

    /** The render after state updates: the interval is cleared and scheduled again when `[runId, status]` changed. */
    method Render()
      modifies this
      ensures State() == Commit(old(State()), ImmediateCheck)
      ensures formData == old(formData)
    {
      var deps := Deps(runId, status);
      if committed != Some(deps) {
        polling := PollActive(runId, status);
        committed := Some(deps);
      }
    }

    /** `handleChange`: only the named field changes; the run is untouched. */
    method HandleChange(name: string, input: ChangeInput)
      modifies this
      ensures formData == Updated(old(formData), name, Processed(input))
      ensures State() == old(State())
    {
      formData := formData[name := Processed(input)];
    }

    /** The synchronous start of `handleSubmit`. */
    method BeginSubmit()
      modifies this
      ensures State() == Step(old(State()), SubmitStarted, ImmediateCheck)
      ensures formData == old(formData)
    {
      isLoading := true;
      error := None;
      Render();
    }

    /** The rest of `handleSubmit`, once the request to start the pipeline has settled. */
    method FinishSubmit(outcome: SubmitReply)
      modifies this
      ensures State() == Step(old(State()), SubmitSettled(outcome), ImmediateCheck)
      ensures formData == old(formData)
    {
      match outcome {
        case Accepted(id) =>
          runId := Some(id);
          status := Some("running");
        case Rejected(message) =>
          error := Some(RejectionMessage(message));
        case Unreachable(thrown) =>
          error := Some(thrown);
      }
      isLoading := false;
      Render();
    }

    /** The interval fires: its callback sends a status request when an interval is scheduled. */
    method IntervalFires() returns (sent: bool)
      modifies this
      ensures sent == old(polling)
      ensures State() == Step(old(State()), IntervalFired, ImmediateCheck)
      ensures formData == old(formData)
    {
      sent := polling;
      if polling {
        inFlight := inFlight + 1;
      }
      Render();
    }

    /** A status request settles: the interval callback after its `await`. */
    method StatusReceived(reply: PollReply)
      modifies this
      ensures State() == Step(old(State()), PollSettled(reply), ImmediateCheck)
      ensures formData == old(formData)
    {
      if inFlight > 0 {
        inFlight := inFlight - 1;
        match reply {
          case PollFailed =>
          case Reported(st, log) =>
            status := st;
            if Present(log) {
              logExcerpt := log;
            }
            if Terminal(st) {
              polling := false;
            }
        }
      }
      Render();
    }
  }
}

=== FILE: nextflow_status.dfy ===
/**
 * `GET /api/nextflow/status?runId=…`: a point-in-time snapshot of a pipeline run,
 * read from the run's directory `work/<runId>/` under the server's working
 * directory and from the shared `public/reports/` directory.
 */
module NextflowStatus {
  import opened Wrappers
  import opened Text
  import opened Json
  import opened Http
  import opened Files
  import opened Layout

  /** How many trailing log lines the snapshot carries (`slice(-10)`). */
  const LogTailLines: nat := 10

  /** The keys the handler writes after spreading the status record. */
  const Overridden: set<string> := {"runId", "reportUrl", "logExcerpt"}

  /** `lines.slice(-LogTailLines)`: the last `LogTailLines` elements, or all of them when there are fewer. */
  function LastLines(lines: seq<string>): (r: seq<string>)
    ensures |r| == if |lines| < LogTailLines then |lines| else LogTailLines
    ensures r == lines[|lines| - |r|..]
  {
    if |lines| <= LogTailLines then lines else lines[|lines| - LogTailLines..]
  }

  /**
   * `logContent.split('\n').slice(-10).join('\n')`. The excerpt is the tail of the
   * log that holds its last ten lines: a suffix of the content with at most nine
   * line breaks, the whole content when that has fewer than ten lines, and exactly
   * the final ten lines otherwise.
   */
  function LogExcerpt(content: string): (e: string)
    ensures IsSuffix(e, content)
    ensures Count(e, '\n') <= LogTailLines - 1
    ensures Count(content, '\n') < LogTailLines ==> e == content
    ensures Count(content, '\n') >= LogTailLines ==> Count(e, '\n') == LogTailLines - 1
    ensures Split(e, '\n') == LastLines(Split(content, '\n'))
  {
    var lines := Split(content, '\n');
    var tail := LastLines(lines);
    JoinSplit(content, '\n');
    JoinTailIsSuffix(lines, |lines| - |tail|, '\n');
    CountJoin(tail, '\n');
    SplitJoin(tail, '\n');
    Join(tail, '\n')
  }

  /**
   * The response body of a found run: every property of the status record, then
   * `runId`, `reportUrl` and `logExcerpt`, which win over same-named properties.
   */
  function SnapshotBody(statusData: Value, runId: string, reportUrl: Value, logExcerpt: Value): (m: map<string, Value>)
    ensures m.Keys == Spread(statusData).Keys + Overridden
    ensures m["runId"] == Str(runId) && m["reportUrl"] == reportUrl && m["logExcerpt"] == logExcerpt
    ensures forall k :: k in Spread(statusData) && k !in Overridden ==> m[k] == Spread(statusData)[k]
  {
    Spread(statusData) + map["runId" := Str(runId), "reportUrl" := reportUrl, "logExcerpt" := logExcerpt]
  }

  /** Reading and parsing `status.json`: the record, or the message the read or the parse threw. */
  function StatusRecord(fs: Snapshot, cwd: string, runId: string, parse: string -> Result<Value, string>): (r: Result<Value, string>)
    ensures ReadFile(fs, StatusFile(cwd, runId)).Err? ==> r == Err(ReadFile(fs, StatusFile(cwd, runId)).error)
    ensures ReadFile(fs, StatusFile(cwd, runId)).Ok? ==> r == parse(ReadFile(fs, StatusFile(cwd, runId)).value)
  {
    match ReadFile(fs, StatusFile(cwd, runId))
    case Err(m) => Err(m)
    case Ok(text) => parse(text)
  }

  /** The `logExcerpt` field: `null` without a log, the excerpt of a readable log, or the read's message. */
  function LogField(fs: Snapshot, cwd: string, runId: string): (r: Result<Value, string>)
    ensures !Exists(fs, LogFile(cwd, runId)) ==> r == Ok(Null)
    ensures Exists(fs, LogFile(cwd, runId)) ==>
              (r.Ok? <==> ReadFile(fs, LogFile(cwd, runId)).Ok?) &&
              (r.Ok? ==> r.value == Str(LogExcerpt(ReadFile(fs, LogFile(cwd, runId)).value)))
    ensures Exists(fs, LogFile(cwd, runId)) && r.Err? ==> r.error == ReadFile(fs, LogFile(cwd, runId)).error
  {
    if !Exists(fs, LogFile(cwd, runId)) then Ok(Null)
    else match ReadFile(fs, LogFile(cwd, runId))
      case Ok(content) => Ok(Str(LogExcerpt(content)))
      case Err(m) => Err(m)
  }

  /** The body of the 500 response. */
  function FailureBody(message: string): Value
  {
    Obj(map["message" := Str("Failed to get status"), "error" := Str(message)])
  }

  /**
   * The handler. `parse` stands for `JSON.parse`; `cwd` for `process.cwd()`.
   * The run id decides 400; the status file's existence decides 404; a failing read
   * or parse decides 500; otherwise the merged snapshot is returned with 200.
   */
  function Get(fs: Snapshot, cwd: string, runId: Option<string>, parse: string -> Result<Value, string>): (r: Response)
    ensures r.code in {200, 400, 404, 500}
    ensures r.code == 400 <==> !Present(runId)
    ensures r.code == 400 ==> r.body == Message("message", "Run ID is required")
    ensures r.code == 404 <==> Present(runId) && !Exists(fs, StatusFile(cwd, runId.value))
    ensures r.code == 404 ==> r.body == Obj(map["message" := Str("Run not found"), "runId" := Str(runId.value)])
    ensures r.code == 500 <==>
              Present(runId) && Exists(fs, StatusFile(cwd, runId.value)) &&
              (StatusRecord(fs, cwd, runId.value, parse).Err? || LogField(fs, cwd, runId.value).Err?)
    ensures r.code == 500 ==>
              var record := StatusRecord(fs, cwd, runId.value, parse);
              r.body == FailureBody(if record.Err? then record.error else LogField(fs, cwd, runId.value).error)
    ensures r.code == 200 ==>
              var id := runId.value;
              var record := StatusRecord(fs, cwd, id, parse);
              var log := LogField(fs, cwd, id);
              && record.Ok? && log.Ok? && r.body.Obj?
              && r.body.fields.Keys == Spread(record.value).Keys + Overridden
              && (forall k :: k in Spread(record.value) && k !in Overridden ==> r.body.fields[k] == Spread(record.value)[k])
              && r.body.fields["runId"] == Str(id)
              && r.body.fields["reportUrl"] == (if Exists(fs, ReportFile(cwd, id)) then Str(ReportUrl(id)) else Null)
              && r.body.fields["logExcerpt"] == log.value
  {
    if !Present(runId) then
      Response(400, Message("message", "Run ID is required"))
    else
      var id := runId.value;
      if !Exists(fs, StatusFile(cwd, id)) then
        Response(404, Obj(map["message" := Str("Run not found"), "runId" := Str(id)]))
      else
        match StatusRecord(fs, cwd, id, parse)
        case Err(m) => Response(500, FailureBody(m))
        case Ok(data) =>
          var reportUrl := if Exists(fs, ReportFile(cwd, id)) then Str(ReportUrl(id)) else Null;
          match LogField(fs, cwd, id)
          case Err(m) => Response(500, FailureBody(m))
          case Ok(excerpt) => Response(200, Obj(SnapshotBody(data, id, reportUrl, excerpt)))
  }
}

=== FILE: run_tracking.dfy ===
/**
 * The run tracking the two pipeline pages share: the state cells `runId`,
 * `status`, `logExcerpt`, `isLoading` and `error`, the submit handler, and the
 * polling effect that depends on `[runId, status]`. Timers and React's scheduling
 * become discrete events. After each event React renders, and the effect is
 * cleaned up and run again when its dependencies changed.
 *
 * The two pages differ only in whether the effect checks the status at once when
 * it starts polling (`immediateCheck`).
 */
module RunTracking {
  import opened Wrappers
  import opened Json
  import opened Layout

  /** The dependency list `[runId, status]` of the polling effect. */
  datatype Deps = Deps(runId: Option<string>, status: Option<string>)

  /**
   * The page's run-tracking state. Beside the five state cells: whether an interval
   * is scheduled, the dependencies the effect last ran with (none before mount), and
   * the number of status requests sent and not yet answered.
   */
  datatype Tracker = Tracker(
    runId: Option<string>,
    status: Option<string>,
    logExcerpt: Option<string>,
    isLoading: bool,
    error: Option<string>,
    polling: bool,
    committed: Option<Deps>,
    inFlight: nat)

  /** The state cells' initial values, before the first render. */
  const Initial := Tracker(None, None, None, false, None, false, None, 0)

  /** How the POST that starts a run ended. */
  datatype SubmitReply =
    | Accepted(runId: string)           // `response.ok`, with the run id in the body
    | Rejected(message: Option<string>) // not ok, with the body's `message` if any
    | Unreachable(thrown: string)       // `fetch` or `response.json()` threw

  /** How one status request ended. */
  datatype PollReply =
    | Reported(status: Option<string>, logExcerpt: Option<string>)
    | PollFailed

  datatype Event =
    | SubmitStarted               // the synchronous start of `handleSubmit`
    | SubmitSettled(outcome: SubmitReply)
    | IntervalFired               // the 5-second interval callback
    | PollSettled(reply: PollReply)

  /** The effect's condition: `runId && (status === 'running' || !status)`. */
  predicate PollActive(runId: Option<string>, status: Option<string>)
  {
    Present(runId) && (status == Some("running") || !Present(status))
  }

  /** The statuses on which the status callback clears its interval. */
  predicate Terminal(status: Option<string>)
  {
    status == Some("complete") || status == Some("failed")
  }

  /** The effect has run for the current dependencies and left polling on exactly when its condition holds. */
  predicate Settled(s: Tracker)
  {
    s.committed == Some(Deps(s.runId, s.status)) && s.polling == PollActive(s.runId, s.status)
  }

  /** `errorData.message || 'Failed to start pipeline'`. */
  function RejectionMessage(message: Option<string>): (m: string)
    ensures m != ""
    ensures Present(message) ==> m == message.value
  {
    if Present(message) then message.value else "Failed to start pipeline"
  }

  /** The state updates a handler or callback makes, before React renders. */
  function Handle(s: Tracker, e: Event): Tracker
  {
    match e
    case SubmitStarted => s.(isLoading := true, error := None)
    case SubmitSettled(Accepted(id)) => s.(runId := Some(id), status := Some("running"), isLoading := false)
    case SubmitSettled(Rejected(m)) => s.(error := Some(RejectionMessage(m)), isLoading := false)
    case SubmitSettled(Unreachable(m)) => s.(error := Some(m), isLoading := false)
    case IntervalFired => if s.polling then s.(inFlight := s.inFlight + 1) else s
    case PollSettled(reply) =>
      if s.inFlight == 0 then s   // no request is outstanding: no reply can arrive
      else
        var t := s.(inFlight := s.inFlight - 1);
        match reply
        case PollFailed => t
        case Reported(st, log) =>
          t.(status := st,
             logExcerpt := if Present(log) then log else s.logExcerpt,
             polling := if Terminal(st) then false else s.polling)
  }

  /**
   * The effect after a render: when `[runId, status]` changed, the cleanup clears the
   * interval and the effect runs again, scheduling an interval (and, with
   * `immediateCheck`, sending one request at once) exactly when its condition holds.
   */
  function Commit(s: Tracker, immediateCheck: bool): (r: Tracker)
    ensures r.committed == Some(Deps(s.runId, s.status))
    ensures r.(polling := s.polling, committed := s.committed, inFlight := s.inFlight) == s
    ensures s.committed == Some(Deps(s.runId, s.status)) ==> r == s
    ensures s.committed != Some(Deps(s.runId, s.status)) ==>
              r.polling == PollActive(s.runId, s.status) &&
              r.inFlight == s.inFlight + (if immediateCheck && PollActive(s.runId, s.status) then 1 else 0)
  {
    var deps := Deps(s.runId, s.status);
    if s.committed == Some(deps) then s
    else
      var active := PollActive(s.runId, s.status);
      s.(polling := active, committed := Some(deps),
         inFlight := s.inFlight + (if active && immediateCheck then 1 else 0))
  }

  /** The first render: the effect runs once, with both dependencies `null`. */
  function Mounted(immediateCheck: bool): (r: Tracker)
    ensures Settled(r) && !r.polling && r.inFlight == 0
    ensures r.runId == None && r.status == None && r.logExcerpt == None && !r.isLoading && r.error == None
  {
    Commit(Initial, immediateCheck)
  }

  /**
   * One event followed by React's render and effect pass.
   *
   * Submitting clears the error and sets `isLoading`; settling clears `isLoading`
   * whatever the outcome, and only an accepted submit changes the run being tracked.
   * A poll reply sets `status`, replaces the excerpt only with a non-empty one, and
   * stops polling on a terminal status; a failed poll changes nothing. Polling is on
   * after every event exactly when the effect's condition holds.
   */
  function Step(s: Tracker, e: Event, immediateCheck: bool): (r: Tracker)
    ensures Settled(s) ==> Settled(r)
    ensures e.SubmitStarted? ==> r.isLoading && r.error == None && r.runId == s.runId && r.status == s.status
    ensures e.SubmitSettled? ==> !r.isLoading && r.logExcerpt == s.logExcerpt
    ensures e.SubmitSettled? && e.outcome.Accepted? ==>
              r.runId == Some(e.outcome.runId) && r.status == Some("running") && r.error == s.error
    ensures e.SubmitSettled? && e.outcome.Rejected? ==>
              r.error == Some(RejectionMessage(e.outcome.message)) && r.runId == s.runId && r.status == s.status
    ensures e.SubmitSettled? && e.outcome.Unreachable? ==>
              r.error == Some(e.outcome.thrown) && r.runId == s.runId && r.status == s.status
    ensures r.runId != s.runId ==> e.SubmitSettled? && e.outcome.Accepted?
    ensures r.status != s.status ==> (e.SubmitSettled? && e.outcome.Accepted?) || (e.PollSettled? && e.reply.Reported?)
    ensures e.PollSettled? && e.reply.Reported? && s.inFlight > 0 ==>
              r.status == e.reply.status &&
              r.logExcerpt == (if Present(e.reply.logExcerpt) then e.reply.logExcerpt else s.logExcerpt)
    ensures e.PollSettled? && e.reply.Reported? && s.inFlight > 0 && Terminal(e.reply.status) ==> !r.polling
    ensures e.PollSettled? && e.reply.PollFailed? && s.inFlight > 0 && Settled(s) ==>
              r == s.(inFlight := s.inFlight - 1)
    ensures e.IntervalFired? && Settled(s) ==> r == s.(inFlight := s.inFlight + (if s.polling then 1 else 0))
    ensures !immediateCheck && !e.IntervalFired? ==> r.inFlight <= s.inFlight
    ensures r.logExcerpt != s.logExcerpt ==> e.PollSettled? && e.reply.Reported? && Present(e.reply.logExcerpt)
    ensures e.PollSettled? || e.IntervalFired? ==> r.isLoading == s.isLoading && r.error == s.error
    ensures e.PollSettled? && s.inFlight == 0 && Settled(s) ==> r == s
    ensures Settled(s) && (e.SubmitStarted? || e.SubmitSettled? || (e.PollSettled? && s.inFlight > 0)) ==>
              r.inFlight == s.inFlight - (if e.PollSettled? then 1 else 0) +
                            (if immediateCheck && Deps(r.runId, r.status) != Deps(s.runId, s.status) &&
                                PollActive(r.runId, r.status) then 1 else 0)
  {
    Commit(Handle(s, e), immediateCheck)
  }

  /** A sequence of events, each followed by its render. */
  function Run(s: Tracker, events: seq<Event>, immediateCheck: bool): Tracker
    decreases |events|
  {
    if events == [] then s else Run(Step(s, events[0], immediateCheck), events[1..], immediateCheck)
  }

  /** No event of `events` is an accepted submit, the only one that starts tracking another run. */
  predicate NoNewRun(events: seq<Event>)
  {
    forall i :: 0 <= i < |events| ==> !(events[i].SubmitSettled? && events[i].outcome.Accepted?)
  }

  /**
   * Once a terminal status has been rendered and no status request is outstanding,
   * polling stays off and the status stays what it is, until another run is started.
   */
  lemma {:induction false} TerminalIsFinal(s: Tracker, events: seq<Event>, immediateCheck: bool)
    requires Settled(s) && Terminal(s.status) && s.inFlight == 0
    requires NoNewRun(events)
    ensures var r := Run(s, events, immediateCheck);
            Settled(r) && r.status == s.status && r.runId == s.runId && !r.polling && r.inFlight == 0
    decreases |events|
  {
    if events != [] {
      var t := Step(s, events[0], immediateCheck);
      assert t.status == s.status && t.runId == s.runId && t.inFlight == 0;
      assert NoNewRun(events[1..]) by {
        forall i | 0 <= i < |events[1..]|
          ensures !(events[1..][i].SubmitSettled? && events[1..][i].outcome.Accepted?)
        {
          assert events[1..][i] == events[i + 1];
        }
      }
      TerminalIsFinal(t, events[1..], immediateCheck);
    }
  }

  /**
   * A reply still outstanding when a terminal status arrives can overwrite it: here a
   * late `running` reply revives polling after `complete` was shown.
   */
  lemma LateReplyRevivesPolling(id: string, immediateCheck: bool)
    requires id != ""
    ensures var s := Tracker(Some(id), Some("running"), None, false, None, true, Some(Deps(Some(id), Some("running"))), 2);
            var done := Step(s, PollSettled(Reported(Some("complete"), None)), immediateCheck);
            var late := Step(done, PollSettled(Reported(Some("running"), None)), immediateCheck);
            Settled(s) && done.status == Some("complete") && !done.polling &&
            late.status == Some("running") && late.polling
  {
  }

  /** The report link of the run panel: shown for a completed run, pointing where the status route points. */
  function ReportLink(runId: Option<string>, status: Option<string>): (href: Option<string>)
    ensures href.Some? <==> Present(runId) && status == Some("complete")
    ensures href.Some? ==> href.value == ReportUrl(runId.value)
  {
    if Present(runId) && status == Some("complete") then Some(ReportUrl(runId.value)) else None
  }

  /**
   * The failure notice of the run panel: shown for a failed run, which is no longer
   * polled and never has a report link beside it.
   */
  predicate ShowsFailureNotice(runId: Option<string>, status: Option<string>): (shown: bool)
    ensures shown ==> Present(runId) && Terminal(status)
    ensures shown ==> ReportLink(runId, status).None? && !PollActive(runId, status)
    ensures Present(runId) && Terminal(status) ==> (shown <==> ReportLink(runId, status).None?)
  {
    Present(runId) && status == Some("failed")
  }

  /** The log block of the run panel: shown inside a panel of a run, for a non-empty excerpt. */
  function ShownLog(runId: Option<string>, logExcerpt: Option<string>): (log: Option<string>)
    ensures log.Some? <==> Present(runId) && Present(logExcerpt)
    ensures log.Some? ==> log == logExcerpt
  {
    if Present(runId) && Present(logExcerpt) then logExcerpt else None
  }
}

=== FILE: scenario.dfy ===
/**
 * A run from end to end: the launcher creates the run's directory and records it
 * as running, the status route reports it so, the pipeline finishes and publishes
 * its report, and the page that polls the status route stops polling and links to
 * the report the route points to.
 */
module Scenario {
  import opened Wrappers
  import opened Json
  import opened Http
  import opened Files
  import opened Layout
  import NextflowStatus
  import VisionXRun
  import opened RunTracking

  /** `JSON.parse(text)` gives the record `{ status }`. */
  predicate ParsesStatus(parse: string -> Result<Value, string>, text: string, status: string)
  {
    parse(text) == Ok(Obj(map["status" := Str(status)]))
  }

  /** The status route's body for a run whose record holds only its status. */
  function StatusBody(runId: string, status: string, reportUrl: Value, logExcerpt: Value): Value
  {
    Obj(map["status" := Str(status), "runId" := Str(runId), "reportUrl" := reportUrl, "logExcerpt" := logExcerpt])
  }

  /** A string property of a response body; anything else reads as absent. */
  function StringField(v: Value, key: string): (s: Option<string>)
    ensures s.Some? <==> Field(v, key).Some? && Field(v, key).value.Str?
    ensures s.Some? ==> Field(v, key).value == Str(s.value)
  {
    match Field(v, key)
    case Some(Str(text)) => Some(text)
    case _ => None
  }

  /** How a page reads a status response: `response.ok`, then the `status` and `logExcerpt` properties. */
  function Reading(r: Response): (reply: PollReply)
    ensures reply.PollFailed? <==> !(200 <= r.code < 300)
    ensures reply.Reported? ==> reply.status == StringField(r.body, "status") && reply.logExcerpt == StringField(r.body, "logExcerpt")
  {
    if 200 <= r.code < 300 then Reported(StringField(r.body, "status"), StringField(r.body, "logExcerpt"))
    else PollFailed
  }

  /** The pipeline finishing: it rewrites the status record and publishes the report. */
  function Finished(fs: Snapshot, cwd: string, runId: string, record: string, report: string): (r: Snapshot)
    ensures r.dirs == fs.dirs && r.faults == fs.faults
    ensures r.files.Keys == fs.files.Keys + {StatusFile(cwd, runId), ReportFile(cwd, runId)}
  {
    fs.(files := fs.files[StatusFile(cwd, runId) := record][ReportFile(cwd, runId) := report])
  }

  /** The run's files are distinct from each other and from the directories the launcher creates. */
  lemma LayoutDistinct(cwd: string, runId: string)
    ensures var files := {ParamsFile(cwd, runId), StatusFile(cwd, runId)};
            && ReportFile(cwd, runId) !in files + {WorkDir(cwd, runId), ReportsDir(cwd)}
            && LogFile(cwd, runId) !in files + {WorkDir(cwd, runId), ReportsDir(cwd)}
            && StatusFile(cwd, runId) !in {WorkDir(cwd, runId), ReportsDir(cwd)}
            && ReportFile(cwd, runId) != StatusFile(cwd, runId)
  {
    var n, k := |cwd|, |runId|;
    assert |WorkDir(cwd, runId)| == n + 6 + k;
    assert |ReportsDir(cwd)| == n + 15;
    assert |ParamsFile(cwd, runId)| == n + 17 + k;
    assert |StatusFile(cwd, runId)| == n + 18 + k;
    assert |LogFile(cwd, runId)| == n + 20 + k;
    assert |ReportFile(cwd, runId)| == n + 21 + k;
  }

  /**
   * A run whose readable status record parses to `{ status }` alone, without a log,
   * is reported with that status and the report URL exactly when the report exists.
   */
  lemma {:induction false} StatusOnlyRecordReported(fs: Snapshot, cwd: string, runId: string, status: string,
                                                    parse: string -> Result<Value, string>)
    requires runId != ""
    requires var p := StatusFile(cwd, runId);
             p in fs.files && p !in fs.dirs && p !in fs.faults && ParsesStatus(parse, fs.files[p], status)
    requires !Exists(fs, LogFile(cwd, runId))
    ensures var reportUrl := if Exists(fs, ReportFile(cwd, runId)) then Str(ReportUrl(runId)) else Null;
            NextflowStatus.Get(fs, cwd, Some(runId), parse) == Response(200, StatusBody(runId, status, reportUrl, Null))
  {
    var reportUrl := if Exists(fs, ReportFile(cwd, runId)) then Str(ReportUrl(runId)) else Null;
    assert NextflowStatus.StatusRecord(fs, cwd, runId, parse) == Ok(Obj(map["status" := Str(status)]));
    assert NextflowStatus.LogField(fs, cwd, runId) == Ok(Null);
    var r := NextflowStatus.Get(fs, cwd, Some(runId), parse);
    assert r.code == 200;
    assert r.body.fields == StatusBody(runId, status, reportUrl, Null).fields;
  }

  /** Right after a successful launch the status route reports the run as running, without report or log. */
  lemma {:induction false} LaunchedRunIsRunning(fs: Snapshot, launched: seq<string>, cwd: string,
                                                entries: seq<VisionXRun.Entry>, runId: string,
                                                parse: string -> Result<Value, string>)
    requires runId != ""
    requires VisionXRun.Launch(fs, launched, cwd, VisionXRun.WithParams(entries), runId).response.code == 200
    requires ParsesStatus(parse, VisionXRun.InitialStatus, "running")
    requires !Exists(fs, ReportFile(cwd, runId)) && !Exists(fs, LogFile(cwd, runId))
    ensures var after := VisionXRun.Launch(fs, launched, cwd, VisionXRun.WithParams(entries), runId).fs;
            NextflowStatus.Get(after, cwd, Some(runId), parse) == Response(200, StatusBody(runId, "running", Null, Null))
  {
    var after := VisionXRun.Launch(fs, launched, cwd, VisionXRun.WithParams(entries), runId).fs;
    LayoutDistinct(cwd, runId);
    var status := StatusFile(cwd, runId);
    assert status in after.files && status !in after.dirs && status !in after.faults;
    assert after.files[status] == VisionXRun.InitialStatus;
    assert !Exists(after, ReportFile(cwd, runId));
    assert !Exists(after, LogFile(cwd, runId));
    StatusOnlyRecordReported(after, cwd, runId, "running", parse);
  }

  /**
   * Once the pipeline has rewritten the record as complete and published the report,
   * the status route reports it complete with the report's URL.
   */
  lemma {:induction false} FinishedRunIsComplete(fs: Snapshot, cwd: string, runId: string, record: string, report: string,
                                                 parse: string -> Result<Value, string>)
    requires runId != ""
    requires ParsesStatus(parse, record, "complete")
    requires VisionXRun.Writable(fs, StatusFile(cwd, runId)) && VisionXRun.Writable(fs, ReportFile(cwd, runId))
    requires !Exists(fs, LogFile(cwd, runId))
    ensures var done := Finished(fs, cwd, runId, record, report);
            NextflowStatus.Get(done, cwd, Some(runId), parse) ==
              Response(200, StatusBody(runId, "complete", Str(ReportUrl(runId)), Null))
  {
    var done := Finished(fs, cwd, runId, record, report);
    LayoutDistinct(cwd, runId);
    assert done.files[StatusFile(cwd, runId)] == record;
    assert Exists(done, ReportFile(cwd, runId));
    assert !Exists(done, LogFile(cwd, runId));
    StatusOnlyRecordReported(done, cwd, runId, "complete", parse);
  }

  /**
   * A page polling a running run that receives the completed snapshot stops polling,
   * shows the run as complete and links to the very URL the status route gave.
   */
  lemma PageFollowsCompletion(s: Tracker, runId: string, immediateCheck: bool)
    requires runId != ""
    requires Settled(s) && s.runId == Some(runId) && s.status == Some("running") && s.inFlight > 0
    ensures var body := StatusBody(runId, "complete", Str(ReportUrl(runId)), Null);
            var t := Step(s, PollSettled(Reading(Response(200, body))), immediateCheck);
            && t.status == Some("complete") && !t.polling && t.logExcerpt == s.logExcerpt
            && ReportLink(t.runId, t.status) == Some(ReportUrl(runId))
            && Field(body, "reportUrl") == Some(Str(ReportUrl(runId)))
  {
    var body := StatusBody(runId, "complete", Str(ReportUrl(runId)), Null);
    assert Reading(Response(200, body)) == Reported(Some("complete"), None);
  }
}

=== FILE: text.dfy ===
/**
 * String operations of JavaScript that the routes rely on, written over `seq<char>`:
 * `split` and `join` on a one-character separator, the first index of a character,
 * and lower-casing restricted to ASCII.
 */
module Text {

  /** Number of occurrences of `c` in `s`. */
  function Count(s: string, c: char): (n: nat)
    ensures n <= |s|
    ensures n == 0 <==> c !in s
  {
    if s == [] then 0
    else (if s[0] == c then 1 else 0) + Count(s[1..], c)
  }

  lemma {:induction false} CountAppend(a: string, b: string, c: char)
    ensures Count(a + b, c) == Count(a, c) + Count(b, c)
  {
    if a == [] {
      assert a + b == b;
    } else {
      assert (a + b)[1..] == a[1..] + b;
      CountAppend(a[1..], b, c);
    }
  }

  /** `s.indexOf(c)`, except that "not found" is `|s|` rather than -1. */
  function IndexOf(s: string, c: char): (i: nat)
    ensures i <= |s|
    ensures i < |s| ==> s[i] == c
    ensures forall k :: 0 <= k < i ==> s[k] != c
  {
    if s == [] then 0
    else if s[0] == c then 0
    else 1 + IndexOf(s[1..], c)
  }

  /** The first occurrence of `c` in `p + [c] + rest` is the one right after `p` when `p` has none. */
  lemma IndexOfAfter(p: string, c: char, rest: string)
    requires c !in p
    ensures IndexOf(p + [c] + rest, c) == |p|
  {
    var s := p + [c] + rest;
    assert s[|p|] == c;
    assert forall k :: 0 <= k < |p| ==> s[k] == p[k];
  }

  /** JavaScript's `s.split(sep)` for a one-character separator: never empty, `""` gives `[""]`. */
  function Split(s: string, sep: char): (parts: seq<string>)
    ensures |parts| == Count(s, sep) + 1
    ensures forall i :: 0 <= i < |parts| ==> sep !in parts[i]
  {
    if s == [] then [[]]
    else
      var rest := Split(s[1..], sep);
      if s[0] == sep then [[]] + rest
      else [[s[0]] + rest[0]] + rest[1..]
  }

  /** JavaScript's `parts.join(sep)`: `[]` gives `""`. */
  function Join(parts: seq<string>, sep: char): string
  {
    if |parts| == 0 then []
    else if |parts| == 1 then parts[0]
    else parts[0] + [sep] + Join(parts[1..], sep)
  }

  /** Joining what was split gives the original text back. */
  lemma {:induction false} JoinSplit(s: string, sep: char)
    ensures Join(Split(s, sep), sep) == s
  {
    if s != [] {
      var rest := Split(s[1..], sep);
      JoinSplit(s[1..], sep);
      if s[0] == sep {
        assert Split(s, sep) == [[]] + rest;
        assert ([[]] + rest)[1..] == rest;
      } else {
        var parts := Split(s, sep);
        assert parts == [[s[0]] + rest[0]] + rest[1..];
        if |rest| == 1 {
          assert Join(rest, sep) == rest[0];
        } else {
          assert parts[1..] == rest[1..];
          assert Join(rest, sep) == rest[0] + [sep] + Join(rest[1..], sep);
        }
      }
    }
  }

  /** Splitting a piece without separator, followed by a separator, peels off that piece. */
  lemma {:induction false} SplitCons(p: string, sep: char, t: string)
    requires sep !in p
    ensures Split(p + [sep] + t, sep) == [p] + Split(t, sep)
  {
    if p == [] {
      assert p + [sep] + t == [sep] + t;
      assert ([sep] + t)[1..] == t;
    } else {
      var s := p + [sep] + t;
      assert s[1..] == p[1..] + [sep] + t;
      SplitCons(p[1..], sep, t);
      assert [p[0]] + p[1..] == p;
    }
  }

  /** A text without separator splits into itself alone. */
  lemma {:induction false} SplitNoSep(p: string, sep: char)
    requires sep !in p
    ensures Split(p, sep) == [p]
  {
    if p != [] {
      SplitNoSep(p[1..], sep);
      assert [p[0]] + p[1..] == p;
    }
  }

  /** Splitting what was joined gives the pieces back, when no piece holds the separator. */
  lemma {:induction false} SplitJoin(parts: seq<string>, sep: char)
    requires |parts| >= 1
    requires forall i :: 0 <= i < |parts| ==> sep !in parts[i]
    ensures Split(Join(parts, sep), sep) == parts
  {
    if |parts| == 1 {
      SplitNoSep(parts[0], sep);
    } else {
      SplitJoin(parts[1..], sep);
      SplitCons(parts[0], sep, Join(parts[1..], sep));
      assert [parts[0]] + parts[1..] == parts;
    }
  }

  /** `a` is a suffix of `b`. */
  predicate IsSuffix(a: string, b: string)
  {
    |a| <= |b| && b[|b| - |a|..] == a
  }

  /** Joining a tail of the pieces gives a suffix of joining them all. */
  lemma {:induction false} JoinTailIsSuffix(parts: seq<string>, k: nat, sep: char)
    requires k <= |parts|
    ensures IsSuffix(Join(parts[k..], sep), Join(parts, sep))
  {
    if k > 0 {
      if |parts| == 1 {
        assert parts[k..] == [];
      } else {
        JoinTailIsSuffix(parts[1..], k - 1, sep);
        assert parts[1..][k - 1..] == parts[k..];
        var whole := Join(parts, sep);
        var rest := Join(parts[1..], sep);
        var tail := Join(parts[k..], sep);
        assert whole == parts[0] + [sep] + rest;
        assert rest[|rest| - |tail|..] == tail;
        assert whole[|whole| - |rest|..] == rest;
        assert whole[|whole| - |tail|..] == rest[|rest| - |tail|..];
      }
    }
  }

  /** The separator count of a join of separator-free pieces is one less than the number of pieces. */
  lemma {:induction false} CountJoin(parts: seq<string>, sep: char)
    requires |parts| >= 1
    requires forall i :: 0 <= i < |parts| ==> sep !in parts[i]
    ensures Count(Join(parts, sep), sep) == |parts| - 1
  {
    if |parts| > 1 {
      CountJoin(parts[1..], sep);
      CountAppend(parts[0] + [sep], Join(parts[1..], sep), sep);
      CountAppend(parts[0], [sep], sep);
      assert Count([sep], sep) == 1;
    }
  }

  /** ASCII upper-case letter. */
  predicate IsUpper(c: char)
  {
    'A' <= c <= 'Z'
  }

  /** ASCII letter of either case. */
  predicate IsLetter(c: char)
  {
    'A' <= c <= 'Z' || 'a' <= c <= 'z'
  }

  /** `toLowerCase` on one character, ASCII only. */
  function LowerChar(c: char): (d: char)
    ensures !IsUpper(d)
    ensures IsLetter(d) <==> IsLetter(c)
    ensures !IsUpper(c) ==> d == c
  {
    if IsUpper(c) then (c as int + 32) as char else c
  }

  /** `s.toLowerCase()`, ASCII only. */
  function Lower(s: string): (r: string)
    ensures |r| == |s|
    ensures forall i :: 0 <= i < |r| ==> !IsUpper(r[i])
    ensures forall i :: 0 <= i < |r| ==> r[i] == LowerChar(s[i])
  {
    seq(|s|, i requires 0 <= i < |s| => LowerChar(s[i]))
  }

  /** `s.replace(/\\/g, '/')`: every backslash becomes a forward slash. */
  function Slashed(s: string): (r: string)
    ensures |r| == |s|
    ensures '\\' !in r
    ensures forall i :: 0 <= i < |s| && s[i] != '\\' ==> r[i] == s[i]
    ensures forall i :: 0 <= i < |s| && s[i] == '\\' ==> r[i] == '/'
  {
    seq(|s|, i requires 0 <= i < |s| => if s[i] == '\\' then '/' else s[i])
  }
}

=== FILE: visionx_engine_runner.dfy ===
/**
 * The VisionX engine page: its parameter form with the comparison and resume
 * check boxes, the submit handler that starts a run, and the polling effect that
 * sends one status request as soon as polling starts and then one on every
 * interval tick while the run is active.
 */
module VisionXEngineRunner {
  import opened Wrappers
  import opened Json
  import opened Forms
  import opened RunTracking

  /** The effect calls `checkStatus()` once as soon as it starts polling. */
  const ImmediateCheck := true

  /** The form's initial values. */
  const Defaults: Form := map[
    "model_types" := Text("simple_cnn,densenet,resnet"),
    "epochs" := Numeric(4.0),
    "batch_size" := Numeric(64.0),
    "learning_rate" := Numeric(0.001),
    "device" := Text("cpu"),
    "val_frac" := Numeric(0.2),
    "test_frac" := Numeric(0.2),
    "seed" := Numeric(42.0),
    "compare_models" := Flag(false),
    "resume_workflow" := Flag(false)]

  /** The comparison report every comparison run writes to. */
  const ComparisonReportUrl := "/reports/comparison_report.html"

  /** `getButtonText`: loading first, then the comparison box, then the resume box. */
  function ButtonText(isLoading: bool, form: Form): (t: string)
    ensures isLoading ==> t == "Starting Pipeline..."
    ensures !isLoading ==> (t == "Run Model Comparison" <==> FieldTruthy(form, "compare_models"))
    ensures !isLoading ==> (t == "Resume Workflow" <==> !FieldTruthy(form, "compare_models") && FieldTruthy(form, "resume_workflow"))
    ensures t == "Run Models" <==> !isLoading && !FieldTruthy(form, "compare_models") && !FieldTruthy(form, "resume_workflow")
  {
    if isLoading then "Starting Pipeline..."
    else if FieldTruthy(form, "compare_models") then "Run Model Comparison"
    else if FieldTruthy(form, "resume_workflow") then "Resume Workflow"
    else "Run Models"
  }

  /** The comparison link: beside the report link of a completed run, when the comparison box is ticked. */
  function ComparisonLink(runId: Option<string>, status: Option<string>, form: Form): (href: Option<string>)
    ensures href.Some? <==> ReportLink(runId, status).Some? && FieldTruthy(form, "compare_models")
    ensures href.Some? ==> href.value == ComparisonReportUrl
  {
    if ReportLink(runId, status).Some? && FieldTruthy(form, "compare_models") then Some(ComparisonReportUrl) else None
  }

  /**
   * The model selector is shown only when not comparing all models, that is exactly
   * when the idle button does not offer the comparison and no comparison link can appear.
   */
  predicate ShowsModelSelection(form: Form): (shown: bool)
    ensures shown <==> ButtonText(false, form) != "Run Model Comparison"
    ensures shown ==> forall runId, status :: ComparisonLink(runId, status, form).None?
  {
    !FieldTruthy(form, "compare_models")
  }

  /** The component's state cells, with the polling effect's interval and in-flight requests. */
  class Runner {
    var formData: Form
    var runId: Option<string>
    var status: Option<string>
    var logExcerpt: Option<string>
    var isLoading: bool
    var error: Option<string>
    var polling: bool
    var committed: Option<Deps>
    var inFlight: nat

    function State(): Tracker
      reads this
    {
      Tracker(runId, status, logExcerpt, isLoading, error, polling, committed, inFlight)
    }

    /** Mounting: the initial state, then the first render and effect. */
    constructor ()
      ensures State() == Mounted(ImmediateCheck)
      ensures formData == Defaults
    {
      formData := Defaults;
      runId, status, logExcerpt := None, None, None;
      isLoading, error := false, None;
      polling, committed, inFlight := false, None, 0;
      new;
      Render();
    }

    /** The render after state updates: the effect is cleaned up and run again when `[runId, status]` changed. */
    method Render()
      modifies this
      ensures State() == Commit(old(State()), ImmediateCheck)
      ensures formData == old(formData)
    {
      var deps := Deps(runId, status);
      if committed != Some(deps) {
        polling := PollActive(runId, status);
        committed := Some(deps);
        if polling && ImmediateCheck {
          inFlight := inFlight + 1;
        }
      }
    }

    /** `handleChange`: only the named field changes; the run is untouched. */
    method HandleChange(name: string, input: ChangeInput)
      modifies this
      ensures formData == Updated(old(formData), name, Processed(input))
      ensures State() == old(State())
    {
      formData := formData[name := Processed(input)];
    }

    /** `handleCheckboxChange`: the named field becomes the box's state; the run is untouched. */
    method HandleCheckboxChange(name: string, checked: bool)
      modifies this
      ensures formData == Updated(old(formData), name, Flag(checked))
      ensures State() == old(State())
    {
      formData := formData[name := Flag(checked)];
    }

    /** The synchronous start of `handleSubmit`. */
    method BeginSubmit()
      modifies this
      ensures State() == Step(old(State()), SubmitStarted, ImmediateCheck)
      ensures formData == old(formData)
    {
      isLoading := true;
      error := None;
      Render();
    }

    /** The rest of `handleSubmit`, once the request to start the pipeline has settled. */
    method FinishSubmit(outcome: SubmitReply)
      modifies this
      ensures State() == Step(old(State()), SubmitSettled(outcome), ImmediateCheck)
      ensures formData == old(formData)
    {
      match outcome {
        case Accepted(id) =>
          runId := Some(id);
          status := Some("running");
        case Rejected(message) =>
          error := Some(RejectionMessage(message));
        case Unreachable(thrown) =>
          error := Some(thrown);
      }
      isLoading := false;
      Render();
    }

    /** The interval fires: `checkStatus` sends a request when an interval is scheduled. */
    method IntervalFires() returns (sent: bool)
      modifies this
      ensures sent == old(polling)
      ensures State() == Step(old(State()), IntervalFired, ImmediateCheck)
      ensures formData == old(formData)
    {
      sent := polling;
      if polling {
        inFlight := inFlight + 1;
      }
      Render();
    }

    /** A status request settles: `checkStatus` after its `await`. */
    method StatusReceived(reply: PollReply)
      modifies this
      ensures State() == Step(old(State()), PollSettled(reply), ImmediateCheck)
      ensures formData == old(formData)
    {
      if inFlight > 0 {
        inFlight := inFlight - 1;
        match reply {
          case PollFailed =>
          case Reported(st, log) =>
            status := st;
            if Present(log) {
              logExcerpt := log;
            }
            if Terminal(st) {
              polling := false;
            }
        }
      }
      Render();
    }
  }
}

=== FILE: visionx_run.dfy ===
/**
 * `POST /api/visionx/run`: starts a VisionX pipeline run. It creates the run
 * directory and the reports directory, writes the parameters as `key=value` lines,
 * hands a `wsl` command to the shell without waiting for it, writes the initial
 * status record, and answers with the new run id.
 */
module VisionXRun {
  import opened Wrappers
  import opened Text
  import opened Json
  import opened Http
  import opened Files
  import opened Layout

  /** One entry of `Object.entries(params)`, its value already turned into text by `${value}`. */
  type Entry = (string, string)

  /** The request body after `request.json()` and `const { params } = body`. */
  datatype RunBody =
    | Unreadable(message: string)   // the body is not JSON, or is `null`
    | NoParams                      // `params` is `undefined` or `null`
    | WithParams(entries: seq<Entry>)

  /** What `Object.entries(undefined)` throws. */
  const NoParamsMessage := "Cannot convert undefined or null to object"

  /** The initial status record, `JSON.stringify({ status: 'running' })`. */
  const InitialStatus := "{\"status\":\"running\"}"

  /** The text before the run id in the launch command. */
  const CommandHead := "wsl /home/darfito/run-visionx.sh \""

  // ---------------------------------------------------------------------------
  // The parameter file

  /** One line of the parameter file. */
  function ParamLine(key: string, value: string): string
  {
    key + "=" + value + "\n"
  }

  /** The parameter file: one `key=value` line per entry, in entry order. */
  function Serialized(entries: seq<Entry>): string
  {
    if entries == [] then "" else ParamLine(entries[0].0, entries[0].1) + Serialized(entries[1..])
  }

  /** Appending an entry appends its line. */
  lemma {:induction false} SerializedSnoc(entries: seq<Entry>, e: Entry)
    ensures Serialized(entries + [e]) == Serialized(entries) + ParamLine(e.0, e.1)
  {
    if entries == [] {
      assert entries + [e] == [e];
      assert [e][1..] == [];
    } else {
      assert (entries + [e])[1..] == entries[1..] + [e];
      SerializedSnoc(entries[1..], e);
    }
  }

  /** The serialising loop: `paramsContent += `${key}=${value}\n`` for each entry. */
  method SerializeParams(entries: seq<Entry>) returns (content: string)
    ensures content == Serialized(entries)
  {
    content := "";
    for i := 0 to |entries|
      invariant content == Serialized(entries[..i])
    {
      SerializedSnoc(entries[..i], entries[i]);
      assert entries[..i + 1] == entries[..i] + [entries[i]];
      content := content + ParamLine(entries[i].0, entries[i].1);
    }
    assert entries[..|entries|] == entries;
  }

  /** Neither key nor value can break the line structure: nothing is escaped. */
  predicate Plain(e: Entry)
  {
    '=' !in e.0 && '\n' !in e.0 && '\n' !in e.1
  }

  /** With no line break inside keys or values the file has exactly one line break per entry. */
  lemma {:induction false} SerializedLineCount(entries: seq<Entry>)
    requires forall i :: 0 <= i < |entries| ==> '\n' !in entries[i].0 && '\n' !in entries[i].1
    ensures Count(Serialized(entries), '\n') == |entries|
  {
    if entries != [] {
      var (k, v) := entries[0];
      SerializedLineCount(entries[1..]);
      CountAppend(k + "=" + v, "\n", '\n');
      CountAppend(k, "=" + v, '\n');
      CountAppend("=", v, '\n');
      CountAppend(ParamLine(k, v), Serialized(entries[1..]), '\n');
    }
  }

  /** A line split at its first `=`; a line without `=` is all key. */
  function SplitEntry(line: string): (e: Entry)
    ensures '=' !in e.0
    ensures e.0 == line || e.0 + "=" + e.1 == line
  {
    var k := IndexOf(line, '=');
    if k == |line| then (line, "") else (line[..k], line[k + 1..])
  }

  /** Reading a parameter file back: each line split at its first `=`. */
  function ParseParams(text: string): seq<Entry>
    decreases |text|
  {
    if text == [] then []
    else
      var n := IndexOf(text, '\n');
      [SplitEntry(text[..n])] + ParseParams(if n < |text| then text[n + 1..] else [])
  }

  /** Reading one plain line back yields its entry. */
  lemma ParseParamLine(k: string, v: string, rest: string)
    requires Plain((k, v))
    ensures ParseParams(ParamLine(k, v) + rest) == [(k, v)] + ParseParams(rest)
  {
    var line := k + "=" + v;
    var text := ParamLine(k, v) + rest;
    assert text == line + ['\n'] + rest;
    IndexOfAfter(line, '\n', rest);
    assert text[..|line|] == line;
    assert text[|line| + 1..] == rest;
    assert line == k + ['='] + v;
    IndexOfAfter(k, '=', v);
    assert line[..|k|] == k;
    assert line[|k| + 1..] == v;
  }

  /** With plain entries the parameter file reads back as the entries, in order. */
  lemma {:induction false} ParamsRoundTrip(entries: seq<Entry>)
    requires forall i :: 0 <= i < |entries| ==> Plain(entries[i])
    ensures ParseParams(Serialized(entries)) == entries
  {
    if entries != [] {
      ParamsRoundTrip(entries[1..]);
      ParseParamLine(entries[0].0, entries[0].1, Serialized(entries[1..]));
      assert [entries[0]] + entries[1..] == entries;
    }
  }

  // ---------------------------------------------------------------------------
  // The path the WSL script is given

  /** The path starts with a drive letter and a colon, as `/^([A-Za-z]):/` matches. */
  predicate HasDrive(p: string)
  {
    |p| >= 2 && IsLetter(p[0]) && p[1] == ':'
  }

  /** `.replace(/^([A-Za-z]):/, '/mnt/$1')`. */
  function MountDrive(p: string): string
  {
    if HasDrive(p) then "/mnt/" + [p[0]] + p[2..] else p
  }

  /**
   * `path.replace(/\\/g, '/').replace(/^([A-Za-z]):/, '/mnt/$1').toLowerCase()`.
   * The result has no backslash and no upper-case letter; a leading drive `X:`
   * becomes `/mnt/x`, and nothing else is rewritten.
   */
  function WslPath(p: string): (r: string)
    ensures '\\' !in r
    ensures forall i :: 0 <= i < |r| ==> !IsUpper(r[i])
    ensures HasDrive(p) ==> r == "/mnt/" + [LowerChar(p[0])] + Lower(Slashed(p[2..]))
    ensures !HasDrive(p) ==> r == Lower(Slashed(p))
  {
    var s := Slashed(p);
    assert HasDrive(s) == HasDrive(p);
    var m := MountDrive(s);
    assert '\\' !in m;
    var r := Lower(m);
    assert forall i :: 0 <= i < |r| ==> r[i] == LowerChar(m[i]) && m[i] != '\\';
    assert HasDrive(p) ==> m == "/mnt/" + [p[0]] + Slashed(p[2..]);
    assert HasDrive(p) ==> r == "/mnt/" + [LowerChar(p[0])] + Lower(Slashed(p[2..]));
    r
  }

  /** Lower-casing text without upper-case letters changes nothing. */
  lemma LowerFixed(s: string)
    requires forall i :: 0 <= i < |s| ==> !IsUpper(s[i])
    ensures Lower(s) == s
  {
  }

  /** Rewriting a path that was already rewritten changes nothing. */
  lemma WslPathIdempotent(p: string)
    ensures WslPath(WslPath(p)) == WslPath(p)
  {
    var r := WslPath(p);
    assert Slashed(r) == r;
    if HasDrive(p) {
      assert r[0] == '/';
    } else if |r| >= 2 {
      var s := Slashed(p);
      assert r[0] == LowerChar(s[0]) && r[1] == LowerChar(s[1]);
      assert IsLetter(r[0]) == IsLetter(p[0]);
      assert r[1] == ':' ==> p[1] == ':';
    }
    assert !HasDrive(r);
    LowerFixed(r);
  }

  // ---------------------------------------------------------------------------
  // The launch command

  /** `wsl /home/darfito/run-visionx.sh "<runId>" "<path>"`. */
  function Command(runId: string, path: string): string
  {
    CommandHead + runId + "\" \"" + path + "\""
  }

  /** The two quoted arguments of a launch command, read back. */
  function CommandArgs(command: string): Option<(string, string)>
  {
    if |command| < |CommandHead| || command[..|CommandHead|] != CommandHead then None
    else
      var rest := command[|CommandHead|..];
      var i := IndexOf(rest, '"');
      if i + 3 > |rest| || rest[i..i + 3] != "\" \"" then None
      else
        var tail := rest[i + 3..];
        var j := IndexOf(tail, '"');
        if j + 1 != |tail| then None else Some((rest[..i], tail[..j]))
  }

  /** Without double quotes in them, the run id and the path are recovered from the command. */
  lemma CommandArgsRoundTrip(runId: string, path: string)
    requires '"' !in runId && '"' !in path
    ensures CommandArgs(Command(runId, path)) == Some((runId, path))
  {
    var command := Command(runId, path);
    assert command[..|CommandHead|] == CommandHead;
    var rest := command[|CommandHead|..];
    assert rest == runId + ['"'] + (" \"" + path + "\"");
    IndexOfAfter(runId, '"', " \"" + path + "\"");
    assert rest[|runId|..|runId| + 3] == "\" \"";
    var tail := rest[|runId| + 3..];
    assert tail == path + ['"'] + [];
    IndexOfAfter(path, '"', []);
    assert rest[..|runId|] == runId;
    assert tail[..|path|] == path;
  }

  // ---------------------------------------------------------------------------
  // The handler

  /** The 200 response. */
  function Started(runId: string): Response
  {
    Response(200, Obj(map["runId" := Str(runId), "message" := Str("VisionX pipeline started in WSL")]))
  }

  /** The 500 response. */
  function Failure(message: string): Response
  {
    Response(500, Obj(map["message" := Str("Failed to start pipeline"), "error" := Str(message)]))
  }

  /** The launch command for a run. */
  function LaunchCommand(cwd: string, runId: string): string
  {
    Command(runId, WslPath(ParamsFile(cwd, runId)))
  }

  /** The handler's response, the file system it leaves, and the commands launched so far. */
  datatype Launched = Launched(response: Response, fs: Snapshot, launched: seq<string>)

  /** Both directories can be created. */
  predicate DirsCreatable(fs: Snapshot, cwd: string, runId: string)
  {
    var work, reports := WorkDir(cwd, runId), ReportsDir(cwd);
    work !in fs.faults && work !in fs.files && reports !in fs.faults && reports !in fs.files
  }

  /** After the directories exist, a file of the run directory can be written. */
  predicate Writable(fs: Snapshot, p: string)
  {
    p !in fs.faults && p !in fs.dirs
  }

  /**
   * The handler, step by step: read the body, create the run directory and the
   * reports directory, serialise the parameters, write them, launch the command,
   * write the initial status record. Whatever throws ends the handler with 500, and
   * what was done before it stays done. `runId` stands for the fresh `uuidv4()`.
   */
  function Launch(fs: Snapshot, launched: seq<string>, cwd: string, body: RunBody, runId: string): (r: Launched)
    ensures r.response.code == 200 || r.response.code == 500
    ensures r.response.code == 200 <==>
              body.WithParams? && DirsCreatable(fs, cwd, runId) &&
              Writable(fs, ParamsFile(cwd, runId)) && Writable(fs, StatusFile(cwd, runId))
    ensures r.response.code == 200 ==>
              && r.response == Started(runId)
              && r.fs == fs.(dirs := fs.dirs + {WorkDir(cwd, runId), ReportsDir(cwd)},
                             files := fs.files[ParamsFile(cwd, runId) := Serialized(body.entries)]
                                              [StatusFile(cwd, runId) := InitialStatus])
    ensures r.response.code == 500 ==>
              exists m :: r.response == Failure(m)
    ensures body.Unreadable? ==> r == Launched(Failure(body.message), fs, launched)
    ensures r.launched ==
              if body.WithParams? && DirsCreatable(fs, cwd, runId) && Writable(fs, ParamsFile(cwd, runId))
              then launched + [LaunchCommand(cwd, runId)] else launched
    ensures forall p :: p in fs.files && p != ParamsFile(cwd, runId) && p != StatusFile(cwd, runId) ==>
              p in r.fs.files && r.fs.files[p] == fs.files[p]
    ensures r.fs.files.Keys <= fs.files.Keys + {ParamsFile(cwd, runId), StatusFile(cwd, runId)}
    ensures WellFormed(fs) ==> WellFormed(r.fs)
  {
    if body.Unreadable? then Launched(Failure(body.message), fs, launched)
    else
      var work := WorkDir(cwd, runId);
      var s1 := MkdirStep(fs, work);
      if s1.outcome.Threw? then Launched(Failure(s1.outcome.message), s1.fs, launched)
      else
        var s2 := MkdirStep(s1.fs, ReportsDir(cwd));
        if s2.outcome.Threw? then Launched(Failure(s2.outcome.message), s2.fs, launched)
        else if body.NoParams? then Launched(Failure(NoParamsMessage), s2.fs, launched)
        else
          var s3 := WriteStep(s2.fs, work, "params.txt", Serialized(body.entries));
          if s3.outcome.Threw? then Launched(Failure(s3.outcome.message), s3.fs, launched)
          else
            var started := launched + [LaunchCommand(cwd, runId)];
            var s4 := WriteStep(s3.fs, work, "status.json", InitialStatus);
            if s4.outcome.Threw? then Launched(Failure(s4.outcome.message), s4.fs, started)
            else Launched(Started(runId), s4.fs, started)
  }

  /**
   * Where a launch fails, it fails at the first step that throws, with that step's
   * message, keeping what the earlier steps did: a faulty or file-occupied run
   * directory, then the same for the reports directory, then a body without
   * `params`, then an unwritable `params.txt`, then an unwritable `status.json`
   * (after the command was already launched).
   */
  lemma LaunchFailsAtFirstThrowingStep(fs: Snapshot, launched: seq<string>, cwd: string, body: RunBody, runId: string)
    ensures var r := Launch(fs, launched, cwd, body, runId);
            var work := WorkDir(cwd, runId);
            !body.Unreadable? && (work in fs.faults || work in fs.files) ==>
              r == Launched(Failure(if work in fs.faults then fs.faults[work] else AlreadyExists(work)), fs, launched)
    ensures var r := Launch(fs, launched, cwd, body, runId);
            var work, reports := WorkDir(cwd, runId), ReportsDir(cwd);
            !body.Unreadable? && work !in fs.faults && work !in fs.files && (reports in fs.faults || reports in fs.files) ==>
              r == Launched(Failure(if reports in fs.faults then fs.faults[reports] else AlreadyExists(reports)),
                            fs.(dirs := fs.dirs + {work}), launched)
    ensures var r := Launch(fs, launched, cwd, body, runId);
            body.NoParams? && DirsCreatable(fs, cwd, runId) ==>
              r == Launched(Failure(NoParamsMessage), fs.(dirs := fs.dirs + {WorkDir(cwd, runId), ReportsDir(cwd)}), launched)
    ensures var r := Launch(fs, launched, cwd, body, runId);
            var params := ParamsFile(cwd, runId);
            body.WithParams? && DirsCreatable(fs, cwd, runId) && !Writable(fs, params) ==>
              r == Launched(Failure(if params in fs.faults then fs.faults[params] else IsDirectory(params)),
                            fs.(dirs := fs.dirs + {WorkDir(cwd, runId), ReportsDir(cwd)}), launched)
    ensures var r := Launch(fs, launched, cwd, body, runId);
            var params, status := ParamsFile(cwd, runId), StatusFile(cwd, runId);
            body.WithParams? && DirsCreatable(fs, cwd, runId) && Writable(fs, params) && !Writable(fs, status) ==>
              r == Launched(Failure(if status in fs.faults then fs.faults[status] else IsDirectory(status)),
                            fs.(dirs := fs.dirs + {WorkDir(cwd, runId), ReportsDir(cwd)},
                                files := fs.files[params := Serialized(body.entries)]),
                            launched + [LaunchCommand(cwd, runId)])
  {
  }

  /** The handler on the host's file system, in the order the source performs its steps. */
  method Post(host: Host, cwd: string, body: RunBody, runId: string) returns (response: Response)
    modifies host
    ensures var out := Launch(old(host.View()), old(host.launched), cwd, body, runId);
            response == out.response && host.View() == out.fs && host.launched == out.launched
  {
    if body.Unreadable? {
      return Failure(body.message);
    }
    var work := WorkDir(cwd, runId);
    var r := host.Mkdir(work);
    if r.Threw? {
      return Failure(r.message);
    }
    r := host.Mkdir(ReportsDir(cwd));
    if r.Threw? {
      return Failure(r.message);
    }
    if body.NoParams? {
      return Failure(NoParamsMessage);
    }
    var content := SerializeParams(body.entries);
    r := host.WriteFile(work, "params.txt", content);
    if r.Threw? {
      return Failure(r.message);
    }
    var command := Command(runId, WslPath(PathJoin(work, "params.txt")));
    host.Exec(command);
    r := host.WriteFile(work, "status.json", InitialStatus);
    if r.Threw? {
      return Failure(r.message);
    }
    response := Started(runId);
  }

  /** The text the `exec` callback writes to `wsl_error.log` when the command fails. */
  function ErrorLogText(message: string, stdout: string, stderr: string): string
  {
    "Error: " + message + "\nStdout: " + stdout + "\nStderr: " + stderr
  }

  /**
   * The `exec` callback on failure, run after the response is gone: it writes only
   * `work/<runId>/wsl_error.log` and launches nothing.
   */
  method RecordLaunchError(host: Host, cwd: string, runId: string, message: string, stdout: string, stderr: string)
    modifies host
    ensures host.View() == WriteStep(old(host.View()), WorkDir(cwd, runId), "wsl_error.log",
                                     ErrorLogText(message, stdout, stderr)).fs
    ensures host.launched == old(host.launched)
    ensures forall p :: p != ErrorLogFile(cwd, runId) && p in old(host.files) ==>
              p in host.files && host.files[p] == old(host.files)[p]
  {
    var _ := host.WriteFile(WorkDir(cwd, runId), "wsl_error.log", ErrorLogText(message, stdout, stderr));
  }
}

=== FILE: wrappers.dfy ===
/** Optional values and results with an error, as used throughout the model. */
module Wrappers {

  /** A value that may be absent: JavaScript's `null`/`undefined` on one side, a value on the other. */
  datatype Option<+T> = None | Some(value: T)

  /** The outcome of an operation that either yields a value or throws with a message. */
  datatype Result<+T, +E> = Ok(value: T) | Err(error: E)
}
